=== FILE: README.md ===
# psst model building, in Dafny

This project models the self-contained logic of `build_model` and
`PSSTModel.solve` in the psst power-system simulator (`psst/model/__init__.py`).
`build_model` turns a case into a Pyomo unit-commitment model. `PSSTModel.solve`
runs a mixed-integer solve, then optionally a fix-and-resolve pass. The Pyomo
calls are left out. The model covers the data that model building computes
before it hands that data to Pyomo:

- **Initial states** (`initial_state.dfy`, module `InitialStates`). Each
  generator's previous 0/1 commitment history becomes a signed count: the
  number of load periods minus the label of the row where the final run of
  equal entries begins, positive if the unit was on in the last row and
  negative if it was off. With rows labelled `0 .. T-1` over `T` load periods
  this is the run length `n` itself. Without a history, an all-zero table over
  the load periods is used.
- **Cost curves** (`cost_curves.dfy`, module `CostCurves`). Each generator
  gets a piecewise-linear cost curve chosen by its `MODEL` and `NCOST`
  columns:
  - a linear curve on two points, raised by 1 when `PMIN = PMAX`;
  - a quadratic sampled at `segments` evenly spaced points;
  - explicit `(COST_2k, COST_2k+1)` pairs;
  - a degenerate no-cost curve.

  It also models every error path and the final check that each curve has at
  least two points.
- **Network incidence** (`network.dfy`, module `Network`). For each bus, the
  lines leaving it (`lines_from`) and the lines arriving at it (`lines_to`).
- **Generator index maps** (`generator_maps.dfy`, module `GeneratorMaps`):
  - the partition of generators by `GEN_TYPE`;
  - `generator_at_bus`;
  - the list of generators whose `PMAX` is zero.
- **Time-series flattening** (`time_series.dfy`, module `TimeSeries`). A
  period-indexed table becomes a dictionary keyed by `(column, period)`. The
  renewable forecast, the hydro forecast and the load table are flattened by
  the same loop.
- **Options** (`options.dfy`, module `Options`):
  - the five settings popped from `config`, with their defaults;
  - the defaulting of the three reserve factors;
  - the market-type check.
- **Solve and resolve** (`solve.dfy`, module `Solve`). A state record holds:
  - the fixed commitment variables;
  - the active constraint groups;
  - a log of solver calls;
  - the results and the status.

  The solver is a function parameter. Resolve runs when it is requested or
  when the solver is `xpress`. It fixes every reported commitment to its
  integer part, switches off the four up/down-time constraint groups and
  solves again, not as a MIP.

`case_data.dfy` (module `CaseData`) holds the case rows (`Line`, `Generator`)
and the period-indexed `Table`. `common.dfy` (module `Common`) holds
`Option`, `Result` and the sequence helpers `Filter`, `Project`, `Distinct`
and `Count`.

The initial-state code has a clean characterisation. It takes diffs, finds
the last nonzero diff and classifies its sign. The deciding row is where the
trailing run of equal values begins, which `TrailingRun` defines without
diffs, and the sign is the last entry's. The theorem
`InitialStateIsSignedTrailingRun` connects the two. The result depends on the
row labels, not only on positions: an all-zero history over load periods
labelled `1 .. 4` gives -3, while labels `0 .. 3` give -4.

The reserve-factor defaulting is modelled as the code is written. A missing
regulating reserve factor zeroes the *global* reserve factor, and the
regulating factor itself stays `None`. `DefaultReserveFactors` states exactly
this.

## Model

| member | source | states |
|---|---|---|
| InitialStates.LastChange | psst/model/__init__.py:204-213 | the row the source classifies when a change exists is the last position whose entry differs from its predecessor; it is absent exactly when the history never changes |
| InitialStates.DecidingRow | psst/model/__init__.py:207-213 | the row `check_row` comes from: the last change when the history has one, otherwise the first row |
| InitialStates.InitialState | psst/model/__init__.py:204-218 | only the empty history fails; otherwise the result is plus or minus the number of load periods less the label of the deciding row, which is the last change or, without one, the first row |
| InitialStates.TrailingRun | psst/model/__init__.py:215-218 | the reference meaning of the result: the length of the final run of equal entries, which is maximal because the entry before it differs |
| InitialStates.InitialStateIsSignedTrailingRun | psst/model/__init__.py:204-218 | for a nonempty 0/1 history, whatever the labels and horizon, the magnitude is the horizon less the label of the row where the trailing run starts, and the sign is that of the last entry |
| InitialStates.PositionLabelsGiveTrailingRun | psst/model/__init__.py:204-218 | with rows labelled by position and as many load periods as rows, the result is the trailing run length, positive exactly when the last entry is 1 |
| InitialStates.LastChangeStartsTrailingRun | psst/model/__init__.py:208-213 | the last nonzero diff sits where the trailing run starts: its position is the history length minus the run length, and without a change the run is the whole history |
| InitialStates.InitialStateExamples | psst/model/__init__.py:204-218 | with labels 0..3 and four load periods, [1,1,1,1] gives +4 and [1,1,0,0] gives -2; with labels 1..4, [0,0,0,0] gives -3 |
| InitialStates.DefaultHistoryIsOffForHorizon | psst/model/__init__.py:197-218 | an all-zero history is decided by its first row: the result is minus the horizon less the first label |
| InitialStates.InitialStates | psst/model/__init__.py:204-218 | there is one entry per column of the previous commitment table, each that column's initial state under the table's row labels and the number of load periods; a table with columns but no rows fails on its first column |
| InitialStates.StatesOf | psst/model/__init__.py:204-218 | after the first j columns the keys are exactly those columns, each holding its own initial state |
| InitialStates.DefaultHistory | psst/model/__init__.py:197-202 | without a history, the table has the load periods as rows and one all-zero column per generator name; a repeated name gives one column, as the dictionary it is built from does |
| InitialStates.DefaultInitialStatesAreOff | psst/model/__init__.py:197-218 | without a history and with T > 0 load periods whose first label is p0, every generator, repeated names included, gets the initial state -(T - p0), which is -T when the periods are numbered from 0 |
| Common.Dedup | psst/model/__init__.py:198-201 | the keys of a dictionary filled from a sequence: no repeats, and exactly the values that occur in it |
| CostCurves.Cost | psst/model/__init__.py:260-261 | reading `COST_k` succeeds exactly when the column exists; otherwise it fails naming the column |
| CostCurves.Linspace | psst/model/__init__.py:246 | n points, the first PMIN and the last PMAX, with a common step (b-a)/(n-1) |
| CostCurves.EvenlySpacedAscending | psst/model/__init__.py:246 | evenly spaced points from a up to b >= a never decrease |
| CostCurves.ExplicitPairs | psst/model/__init__.py:256-264 | n pairs with point k = `COST_2k` and value k = `COST_2k+1`, in column order; with too few columns it fails on the first odd column read that is missing |
| CostCurves.LinearCostCurve | psst/model/__init__.py:236-243 | exactly the points [PMIN, PMAX], or [PMIN, PMAX+1] when PMIN = PMAX, each valued `COST_0 + COST_1*p` |
| CostCurves.LinearPointsAscend | psst/model/__init__.py:238-242 | the two linear breakpoints strictly ascend whenever PMIN <= PMAX, also when PMIN = PMAX |
| CostCurves.QuadraticCostCurve | psst/model/__init__.py:245-247 | `segments` evenly spaced points from PMIN to PMAX with no perturbation, each valued by the quadratic; a negative count fails |
| CostCurves.QuadraticCurveAscends | psst/model/__init__.py:245-247 | quadratic breakpoints never decrease when PMIN <= PMAX; with PMIN >= 0 and nonnegative `COST_1` and `COST_2`, neither do their costs |
| CostCurves.ExplicitCostCurve | psst/model/__init__.py:252-264 | `NCOST` = 1 fails; otherwise the curve has `NCOST` explicit pairs, with no sortedness check, and too few `COST` columns fail on the first missing odd column |
| CostCurves.GeneratorCurve | psst/model/__init__.py:231-272 | the per-row dispatch: MODEL 2 with NCOST outside {2,3} fails as not implemented; MODEL 1 with NCOST 1 fails, and with too few COST columns fails on the first missing one; MODEL 0 gives exactly [(0,0),(PMAX,0.01)]; any other MODEL makes no entry; every curve has as many values as points |
| CostCurves.CollectCurves | psst/model/__init__.py:231-272 | the first pass succeeds exactly when every row's curve does, and yields the rows' curves in order; otherwise it fails with the error of the first failing row |
| CostCurves.CheckCurveLengths | psst/model/__init__.py:274-279 | the second pass succeeds exactly when no curve has fewer than two points; otherwise it reports the first short curve and its length |
| CostCurves.CostCurves | psst/model/__init__.py:226-279 | the build succeeds exactly when every row's curve succeeds and has at least two points; the keys are then the generators whose MODEL is 0, 1 or 2, and each curve has at least two points and as many values as points. A failed build reports the error of the first row that raises in the first pass or, when none does, the first curve with fewer than two points |
| CostCurves.FirstPassError | psst/model/__init__.py:231-272 | a failing first pass reports the error of its first failing row, so not every row succeeded |
| CostCurves.SecondPassError | psst/model/__init__.py:274-279 | a failing second pass reports the first row whose curve has fewer than two points |
| CostCurves.CurvesBuilt | psst/model/__init__.py:226-279 | when both passes succeed, every row's curve is built with at least two points, and the dictionaries hold exactly the rows with a curve model |
| CostCurves.ShortCurvesRejected | psst/model/__init__.py:274-279 | a `MODEL` 1 row with `NCOST` 0, and a quadratic row sampled at fewer than two points, make the build fail on the length check, reporting the short length |
| CostCurves.CurveMap | psst/model/__init__.py:263-272 | the curves are keyed by generator name: one entry per row that produced a curve, holding that row's curve |
| Network.BuildIncidence | psst/model/__init__.py:123-128 | the walk succeeds exactly when every line names known buses, and then yields the reference incidence of the whole table (every bus a key, possibly with an empty list, holding the lines that start or end there in table order); otherwise it fails at the first such line, naming its `F_BUS` when that is unknown and its `T_BUS` otherwise |
| Network.EmptyIncidence | psst/model/__init__.py:123-124 | the two dictionaries of empty lists, one per bus, are the incidence of no lines |
| Network.KnownEndsPrefix | psst/model/__init__.py:126-128 | each loop step either meets the first line with an unknown end or extends the run of lines with known ends |
| Network.IncidenceOf | psst/model/__init__.py:123-128 | the reference incidence of a prefix of the branch table: every bus of the bus table is a key of both maps, holding the lines of that prefix that start (end) there |
| Network.AppendLine | psst/model/__init__.py:126-128 | one iteration succeeds exactly when both ends of the line are known buses, failing on `F_BUS` first; on success it turns the incidence of the first i lines into that of the first i+1 |
| Network.IncidenceExtend | psst/model/__init__.py:127-128 | appending a line with known ends to the lists of its two end buses gives the incidence of the longer prefix |
| Network.IncidenceIsFilter | psst/model/__init__.py:126-128 | the list of a bus is the branch table filtered to the lines starting (ending) there, keeping table order |
| Network.EachLineListedOnce | psst/model/__init__.py:126-128 | with distinct line names, each line is in the `lines_from` list of its `F_BUS` exactly once and of no other bus, and likewise for `lines_to` and `T_BUS` |
| GeneratorMaps.PartitionByType | psst/model/__init__.py:136-155 | each of the thermal, renewable and hydro name lists holds only generators of that exact `GEN_TYPE`, and together they hold no more names than the table has rows |
| GeneratorMaps.PartitionExactlyOnce | psst/model/__init__.py:136-155 | with distinct names, a generator is in the list of its own type exactly once and in no other list; a generator of any other type is in none |
| GeneratorMaps.GeneratorAtBus | psst/model/__init__.py:166-169 | the keys are exactly the distinct `GEN_BUS` values, each list is nonempty, and each list holds that bus's generators in table order |
| GeneratorMaps.GeneratorsAtIsFilter | psst/model/__init__.py:168-169 | the list of a bus is the generator table filtered to that bus, keeping table order |
| GeneratorMaps.AttachedGeneratorListed | psst/model/__init__.py:168-169 | every generator is on the list of its own bus |
| GeneratorMaps.EachGeneratorListedOnce | psst/model/__init__.py:166-169 | with distinct names, each generator is listed exactly once under its own bus and under no other |
| GeneratorMaps.ZeroCapacity | psst/model/__init__.py:106-108 | the zero-capacity list holds exactly the generators whose `PMAX` is 0 |
| TimeSeries.RowEntries | psst/model/__init__.py:149-150 | after the first j columns of a row, the keys are those columns paired with the row's period, and each holds its cell |
| TimeSeries.StoreRow | psst/model/__init__.py:149-150 | storing one row overwrites exactly that row's (column, period) keys with its cells |
| TimeSeries.FlattenRowsKeys | psst/model/__init__.py:148-150 | after n rows the keys are exactly the (column, period) pairs of those rows |
| TimeSeries.FlattenRowsAt | psst/model/__init__.py:148-150 | after n rows, a key holds the cell of the last of those rows that has its period label |
| TimeSeries.FlattenRowsComplete | psst/model/__init__.py:146-150 | the finished dictionary has every (column, period) pair of the table as a key, holding the cell of the last row with that period |
| TimeSeries.FlattenTable | psst/model/__init__.py:146-150 | the renewable forecast, hydro forecast and load loops: keys are exactly column x period, and each holds the table's cell, the last row winning on a repeated period |
| Options.Pop | psst/model/__init__.py:68 | `pop` returns the stored value or the default, and removes exactly that key |
| Options.ReadSettings | psst/model/__init__.py:64-73 | each setting is the stored value when present, or its default (use_ptdf False, segments 2, has_global_reserves True, resolve False, market_type "day_ahead"); the remaining dictionary has lost exactly those five keys, with every other entry unchanged; an absent config is an empty one |
| Options.ReadSettingsConsumes | psst/model/__init__.py:68-73 | reading the settings again from what is left gives all defaults and leaves the dictionary unchanged |
| Options.AbsentConfigGivesDefaults | psst/model/__init__.py:64-73 | with no config every setting takes its default |
| Options.DefaultReserveFactors | psst/model/__init__.py:75-82 | a missing reserve or flexible-ramp factor becomes 0; a missing regulating factor zeroes the reserve factor and itself stays missing |
| Options.CheckMarketType | psst/model/__init__.py:328-335 | accepted exactly when the value is one of the strings "day_ahead", "hourly_ahead" or "real_time", read back as that market; anything else fails as not implemented, carrying the value |
| Options.MarketNameRoundTrip | psst/model/__init__.py:328-333 | every market's name passes the check and is read back as that market |
| Options.DefaultMarketTypeAccepted | psst/model/__init__.py:73 | the default market type passes the check as day-ahead |
| Solve.NewModel | psst/model/__init__.py:353-358 | a new model has nothing fixed, no solver calls, no results and no status |
| Solve.Truncate | psst/model/__init__.py:385 | `int(float(v))` rounds toward zero: the result is within 1 of v, on v's side of zero |
| Solve.TruncateInteger | psst/model/__init__.py:385 | truncating a whole number gives it back |
| Solve.TruncateBinary | psst/model/__init__.py:385 | 0/1 commitments are fixed to 0 and 1 |
| Solve.FixCommitment | psst/model/__init__.py:381-385 | after the walk, the fixed variables are the earlier ones plus every entry with a value; an entry with a value is fixed to its truncation, and entries without a value leave their variable as it was |
| Solve.Resolve | psst/model/__init__.py:380-395 | the resolve fixes the reported commitments, removes exactly the four up/down-time groups, then makes one non-MIP solver call on that fixed model; it succeeds exactly when that call does, and then the call's table becomes the results and the status becomes solved; a failing call is reported with its message and leaves status and results as they were |
| Solve.SolveModel | psst/model/__init__.py:372-395 | the first call is always a MIP solve. Without resolve (and with a solver other than xpress), nothing is fixed or switched off, the MIP results are kept and the status becomes solved. With resolve, the MIP is followed by exactly one non-MIP solve of the fixed model, the fixed values come from the MIP table and the four groups are switched off; the call succeeds exactly when that solve does, whose table then becomes the results, while a failing solve leaves the MIP results in place. A failing solver call leaves the status unchanged |
| Solve.ResolveFixesReportedCommitments | psst/model/__init__.py:381-385 | after a resolve, each commitment the MIP reported is fixed, to exactly its value when that value is whole, and a commitment the MIP left empty is not fixed by the resolve |
| Solve.ResolveDeactivatesExactlyUpDownTime | psst/model/__init__.py:387-390 | after a resolve a group is active exactly when it was active before and is not one of the four up/down-time groups |
| Solve.ResolveTwiceKeepsGroups | psst/model/__init__.py:387-390 | a second resolving solve leaves the active groups as they are |

## Left out

- The Pyomo calls (`initialize_*`, `constraint_*`, `objective_function`,
  `piece_wise_linear_cost`, `Suffix`) are external code and are not part of
  this model. Model building is modelled up to the data handed to them.
- `solve_model` and `PSSTResults` are external. The solver is a function
  parameter that sees the model state and the MIP flag and returns a
  commitment table or a failure. `verbose`, `keepfiles` and `**kwargs` are
  passed through and not modelled. This includes the case where `kwargs`
  itself carries `is_mip`.
- The pandas dtype coercion, `iterrows`, `diff` and `dropna` are replaced by
  sequences and maps. Numbers are exact reals. The `float()` coercion of
  curve entries and NumPy's rounding in `linspace` are not modelled.
- Logging and the zero-`PMAX` warning are I/O. The zero-capacity list is
  modelled as a pure filter. The reassignment of a zero `PMAX` to 0 changes
  nothing.
- These pieces are left out because they are single expressions, copies or
  formatting:
  - the reactance scaling by `base_MVA`;
  - the `RAMP` copy;
  - the hot and cold start costs (both copy `STARTUP`);
  - the reserve, regulation and VOM price parameters;
  - `__repr__`;
  - the commented-out fixing loop;
  - the `is_solved` flag, which is never read;
  - the unused `use_ptdf` value and PTDF import.
- InitialStates.InitialState: period labels are integers. The source
  applies `int()` to whatever labels the history's index carries; timestamps
  or other non-integer labels are not modelled.
- CostCurves.CostCurves: requires distinct generator names. With repeated
  names the source's dictionaries keep the last row, which is not modelled.
  The same holds for GeneratorMaps.PartitionExactlyOnce,
  GeneratorMaps.EachGeneratorListedOnce and Network.EachLineListedOnce, whose
  "exactly once" needs distinct names.
- CostCurves.GeneratorCurve: `NCOST` and `MODEL` are integers. Fractional
  values, `NaN` cells, and a present-but-empty `COST_k` cell are not modelled.
  A missing `COST_k` column is an error, standing for pandas' `KeyError`.
- The NumPy errors for a negative `segments` or `NCOST` are modelled as one
  error, `NegativeCount`. Their exception types are not distinguished.
- Options.ReadSettings: the settings are returned as untyped config values.
  The later use of `segments` as a sample count is a separate parameter of
  CostCurves.CostCurves, and the conversion between the two is not modelled.
- Options.CheckMarketType: all three accepted markets add the same
  flexible-ramping constraints. That call is external, so only the accepted
  market is returned.
- Solve.SolveModel: fixing a variable `UnitOn[g, t]` whose index is not in
  the model would raise in Pyomo. The commitment table is assumed to be
  keyed by the model's own (generator, period) pairs.
- InitialStates.InitialStates: a previous-commitment table with a repeated
  column label is excluded by `WellFormedTable`. The source accepts such a
  table and then raises a `ValueError` at line 215 of
  `psst/model/__init__.py`, whatever the number of rows, because the truth
  test is applied to a two-element array. That error is not modelled.
- TimeSeries.FlattenTable: a table with repeated column labels is excluded by
  `WellFormedTable`.
- Two behaviours of the code may look like slips, and the model keeps both
  as written:
  - `MODEL` 1 curves are not checked for ascending points;
  - a missing regulating reserve factor zeroes the global reserve factor.

=== FILE: case_data.dfy ===
/** The rows of the case tables that model building reads. Each record keeps
    only the columns the modelled fragments of `build_model` consult. */
module CaseData {
  import opened Common

  type BusId = string
  type LineId = string
  type GenId = string
  /** A period label of a time-indexed table. */
  type Period = int
  /** A column label of a time-indexed table (a generator, bus or zone). */
  type ColumnId = string

  /** A row of the branch table: its index label and the `F_BUS` and `T_BUS`
      columns. */
  datatype Line = Line(name: LineId, fromBus: BusId, toBus: BusId)

  /** A row of the generator table.
      `costModel` is the `MODEL` column, `ncost` the `NCOST` column and
      `costs[k]` the `COST_k` column; a `COST_k` column the table does not
      have is represented by `k >= |costs|`. */
  datatype Generator = Generator(
    name: GenId,
    bus: BusId,
    genType: string,
    pmin: real,
    pmax: real,
    costModel: int,
    ncost: int,
    costs: seq<real>)

  function LineName(l: Line): LineId { l.name }

  function GenName(g: Generator): GenId { g.name }

  /** The index labels of a sequence of branch rows, in row order. */
  function LineNames(lines: seq<Line>): seq<LineId> {
    Project(lines, LineName)
  }

  /** The index labels of a sequence of generator rows, in row order. */
  function GenNames(gens: seq<Generator>): seq<GenId> {
    Project(gens, GenName)
  }

  /** A period-indexed table (forecasts, loads, previous commitment): row
      labels `index`, column labels `columns`, and `cells[i][j]` the entry of
      row `i` in column `j`. */
  datatype Table<V> = Table(index: seq<Period>, columns: seq<ColumnId>, cells: seq<seq<V>>)

  /** A rectangular table whose column labels are distinct, so that reading
      one column of a row gives one value. */
  predicate WellFormedTable<V>(t: Table<V>) {
    && |t.cells| == |t.index|
    && (forall i :: 0 <= i < |t.cells| ==> |t.cells[i]| == |t.columns|)
    && Distinct(t.columns)
  }

  /** Column `j` of `t`, top to bottom. */
  function Column<V>(t: Table<V>, j: nat): (r: seq<V>)
    requires WellFormedTable(t) && j < |t.columns|
    ensures |r| == |t.index|
    ensures forall i :: 0 <= i < |r| ==> r[i] == t.cells[i][j]
  {
    seq(|t.index|, i requires 0 <= i < |t.index| => t.cells[i][j])
  }
}

=== FILE: common.dfy ===
/** Failure-compatible wrappers and small sequence utilities shared by the
    model-building modules. */
module Common {

  /** A value that may be absent; stands for Python's `None`. */
  datatype Option<+T> = None | Some(value: T)

  /** The outcome of a step that may raise an exception in the source. */
  datatype Result<+T, +E> = Ok(value: T) | Err(error: E) {

    predicate IsFailure() {
      Err?
    }

    function PropagateFailure<U>(): Result<U, E>
      requires Err?
    {
      Err(error)
    }

    function Extract(): T
      requires Ok?
    {
      value
    }
  }

  /** The elements of `xs` that satisfy `p`, in their original order. */
  function Filter<T>(xs: seq<T>, p: T -> bool): (r: seq<T>)
    ensures |r| <= |xs|
  {
    if |xs| == 0 then []
    else Filter(xs[..|xs| - 1], p) + (if p(xs[|xs| - 1]) then [xs[|xs| - 1]] else [])
  }

  /** Exactly the elements of `xs` that satisfy `p` survive filtering. */
  lemma {:induction false} FilterMembers<T>(xs: seq<T>, p: T -> bool)
    ensures forall x :: x in Filter(xs, p) <==> x in xs && p(x)
    decreases |xs|
  {
    if |xs| > 0 {
      FilterMembers(xs[..|xs| - 1], p);
      assert xs == xs[..|xs| - 1] + [xs[|xs| - 1]];
    }
  }

  /** Filtering a one-element extension only looks at the new element. */
  lemma FilterSnoc<T>(xs: seq<T>, x: T, p: T -> bool)
    ensures Filter(xs + [x], p) == Filter(xs, p) + (if p(x) then [x] else [])
  {
    assert (xs + [x])[..|xs + [x]| - 1] == xs;
  }

  /** True when no value occurs twice in `xs`. */
  predicate Distinct<T(==)>(xs: seq<T>) {
    forall i, j :: 0 <= i < j < |xs| ==> xs[i] != xs[j]
  }

  /** The values of `xs` without repeats, each at its first occurrence, as
      the keys of a dictionary filled from `xs` in order. */
  function Dedup<T(==,!new)>(xs: seq<T>): (r: seq<T>)
    ensures Distinct(r)
    ensures forall x :: x in r <==> x in xs
    ensures |r| <= |xs|
  {
    if |xs| == 0 then []
    else
      var d := Dedup(xs[..|xs| - 1]);
      var x := xs[|xs| - 1];
      assert xs == xs[..|xs| - 1] + [x];
      if x in d then d else d + [x]
  }

  /** A position at which `x` occurs in `xs`. */
  function IndexOf<T(==)>(xs: seq<T>, x: T): (j: nat)
    requires x in xs
    ensures j < |xs| && xs[j] == x
  {
    if xs[0] == x then 0 else 1 + IndexOf(xs[1..], x)
  }

  /** Number of occurrences of `x` in `xs`. */
  function Count<T(==)>(xs: seq<T>, x: T): nat {
    multiset(xs)[x]
  }

  /** `f` applied to each element of `xs`, in order. */
  function Project<T, U>(xs: seq<T>, f: T -> U): (r: seq<U>)
    ensures |r| == |xs|
    ensures forall i :: 0 <= i < |xs| ==> r[i] == f(xs[i])
  {
    seq(|xs|, i requires 0 <= i < |xs| => f(xs[i]))
  }

  /** When `f` tells the elements of `xs` apart, the image of element `k`
      occurs exactly once among the images of the elements that satisfy `p`
      if element `k` satisfies `p`, and not at all otherwise. */
  lemma {:induction false} FilterProjectCount<T, K>(xs: seq<T>, p: T -> bool, f: T -> K, k: nat)
    requires k < |xs| && Distinct(Project(xs, f))
    ensures Count(Project(Filter(xs, p), f), f(xs[k])) == if p(xs[k]) then 1 else 0
    decreases |xs|
  {
    var init := xs[..|xs| - 1];
    var last := xs[|xs| - 1];
    var x := f(xs[k]);
    FilterProjectSnocCount(xs, p, f, x);
    DistinctProjectPrefix(xs, f);
    if k == |xs| - 1 {
      FilterProjectOut(init, p, f, x);
    } else {
      assert xs[k] == init[k];
      FilterProjectCount(init, p, f, k);
    }
  }

  /** Filtering and projecting a one-element extension adds at most one
      occurrence, of the new element's image. */
  lemma FilterProjectSnocCount<T, K>(xs: seq<T>, p: T -> bool, f: T -> K, x: K)
    requires |xs| > 0
    ensures Count(Project(Filter(xs, p), f), x)
         == Count(Project(Filter(xs[..|xs| - 1], p), f), x) + (if p(xs[|xs| - 1]) && f(xs[|xs| - 1]) == x then 1 else 0)
  {
    var init := xs[..|xs| - 1];
    var last := xs[|xs| - 1];
    var tail := if p(last) then [last] else [];
    assert Filter(xs, p) == Filter(init, p) + tail;
    ProjectConcat(Filter(init, p), tail, f);
    var a := Project(Filter(init, p), f);
    var b := Project(tail, f);
    assert multiset(Project(Filter(xs, p), f)) == multiset(a) + multiset(b);
    assert multiset(b)[x] == if p(last) && f(last) == x then 1 else 0;
  }

  /** Distinct images stay distinct on a prefix, and differ from the last. */
  lemma DistinctProjectPrefix<T, K>(xs: seq<T>, f: T -> K)
    requires |xs| > 0 && Distinct(Project(xs, f))
    ensures Distinct(Project(xs[..|xs| - 1], f))
    ensures forall j :: 0 <= j < |xs| - 1 ==> f(xs[j]) != f(xs[|xs| - 1])
  {
    assert forall j :: 0 <= j < |xs| ==> Project(xs, f)[j] == f(xs[j]);
    assert forall i :: 0 <= i < |xs| - 1 ==> Project(xs[..|xs| - 1], f)[i] == Project(xs, f)[i];
  }

  lemma ProjectConcat<T, U>(xs: seq<T>, ys: seq<T>, f: T -> U)
    ensures Project(xs + ys, f) == Project(xs, f) + Project(ys, f)
  {
  }

  /** Every image of a filtered element is the image of some element. */
  lemma FilterProjectIn<T, U>(xs: seq<T>, p: T -> bool, f: T -> U)
    ensures forall v :: v in Project(Filter(xs, p), f) ==> exists j :: 0 <= j < |xs| && v == f(xs[j])
  {
    forall v | v in Project(Filter(xs, p), f)
      ensures exists j :: 0 <= j < |xs| && v == f(xs[j])
    {
      var i :| 0 <= i < |Filter(xs, p)| && Project(Filter(xs, p), f)[i] == v;
      FilterMembers(xs, p);
      assert Filter(xs, p)[i] in xs;
    }
  }

  /** A value that is the image of no element is not the image of a
      filtered one. */
  lemma FilterProjectOut<T, U>(xs: seq<T>, p: T -> bool, f: T -> U, v: U)
    requires forall j :: 0 <= j < |xs| ==> f(xs[j]) != v
    ensures v !in Project(Filter(xs, p), f)
  {
    FilterProjectIn(xs, p, f);
  }
}

=== FILE: cost_curves.dfy ===
/** Piecewise-linear production cost curves: the `points` and `values`
    dictionaries `build_model` hands to `piece_wise_linear_cost`.

    Each generator row is turned into a curve according to its `MODEL` column
    (2 = polynomial, 1 = explicit pairs, 0 = no cost) and `NCOST` column; a
    second pass rejects any curve with fewer than two points. Numbers are exact
    reals: the `float()` coercion and NumPy rounding are not modelled. */
module CostCurves {
  import opened Common
  import opened CaseData

  /** Breakpoints and the cost at each breakpoint. */
  datatype Curve = Curve(points: seq<real>, values: seq<real>)

  datatype CurveError =
    /** `NotImplementedError`: a polynomial cost with other than 2 or 3
        coefficients. */
    | UnsupportedNcost(gen: GenId, ncost: int)
    /** The assertion that an explicit curve does not have a single point. */
    | SinglePointCurve(gen: GenId, ncost: int)
    /** NumPy's `ValueError` for a negative sample count or array size. */
    | NegativeCount(gen: GenId, count: int)
    /** `KeyError` on reading a `COST_k` column the table does not have. */
    | MissingCost(gen: GenId, column: nat)
    /** The final assertion that every curve has at least two points. */
    | TooFewPoints(gen: GenId, found: nat)

  /** The three `MODEL` values that produce a curve. */
  predicate HasCurveModel(g: Generator) {
    g.costModel == 0 || g.costModel == 1 || g.costModel == 2
  }

  /** Reads column `COST_k` of a generator row. */
  function Cost(g: Generator, k: nat): (r: Result<real, CurveError>)
    ensures r.Ok? <==> k < |g.costs|
    ensures r.Ok? ==> r.value == g.costs[k]
    ensures r.Err? ==> r.error == MissingCost(g.name, k)
  {
    if k < |g.costs| then Ok(g.costs[k]) else Err(MissingCost(g.name, k))
  }

  /** `n` points from `a` to `b` inclusive with a common step, as
      `numpy.linspace(a, b, num=n)` produces them in exact arithmetic. */
  predicate EvenlySpaced(ps: seq<real>, a: real, b: real) {
    && (|ps| >= 1 ==> ps[0] == a)
    && (|ps| >= 2 ==> ps[|ps| - 1] == b)
    && (|ps| >= 2 ==> forall i :: 0 <= i < |ps| - 1 ==>
          ps[i + 1] - ps[i] == (b - a) / ((|ps| - 1) as real))
  }

  predicate NonDecreasing(xs: seq<real>) {
    forall i, j :: 0 <= i <= j < |xs| ==> xs[i] <= xs[j]
  }

  function Linspace(a: real, b: real, n: nat): (r: seq<real>)
    ensures |r| == n
    ensures EvenlySpaced(r, a, b)
  {
    if n == 0 then []
    else if n == 1 then [a]
    else
      var step := (b - a) / ((n - 1) as real);
      var r := seq(n, i requires 0 <= i < n => a + (i as real) * step);
      assert r[n - 1] == b by {
        assert r[n - 1] == a + ((n - 1) as real) * step;
        MultiplyQuotient(b - a, (n - 1) as real);
      }
      r
  }

  lemma MultiplyQuotient(x: real, d: real)
    requires d != 0.0
    ensures d * (x / d) == x
  {
  }

  /** Evenly spaced points from `a` up to `b >= a` are in ascending order. */
  lemma {:induction false} EvenlySpacedAscending(ps: seq<real>, a: real, b: real)
    requires EvenlySpaced(ps, a, b) && a <= b
    ensures NonDecreasing(ps)
  {
    if |ps| >= 2 {
      var step := (b - a) / ((|ps| - 1) as real);
      assert step >= 0.0;
      forall i, j | 0 <= i <= j < |ps|
        ensures ps[i] <= ps[j]
      {
        AscendingFrom(ps, step, i, j);
      }
    }
  }

  lemma {:induction false} AscendingFrom(ps: seq<real>, step: real, i: nat, j: nat)
    requires i <= j < |ps| && step >= 0.0
    requires forall k :: 0 <= k < |ps| - 1 ==> ps[k + 1] - ps[k] == step
    ensures ps[i] <= ps[j]
    decreases j - i
  {
    if i < j {
      AscendingFrom(ps, step, i, j - 1);
    }
  }

  /** The cost `c0 + c1 * p + c2 * p^2` at output `p`. */
  function Polynomial(c0: real, c1: real, c2: real, p: real): real {
    c0 + c1 * p + c2 * p * p
  }

  /** Affine cost `COST_0 + COST_1 * p` evaluated at each breakpoint. */
  function AffineValues(c0: real, c1: real, ps: seq<real>): (r: seq<real>)
    ensures |r| == |ps|
    ensures forall i :: 0 <= i < |ps| ==> r[i] == Polynomial(c0, c1, 0.0, ps[i])
  {
    seq(|ps|, i requires 0 <= i < |ps| => Polynomial(c0, c1, 0.0, ps[i]))
  }

  /** Quadratic cost `COST_0 + COST_1 * p + COST_2 * p^2` at each breakpoint. */
  function QuadraticValues(c0: real, c1: real, c2: real, ps: seq<real>): (r: seq<real>)
    ensures |r| == |ps|
    ensures forall i :: 0 <= i < |ps| ==> r[i] == Polynomial(c0, c1, c2, ps[i])
  {
    seq(|ps|, i requires 0 <= i < |ps| => Polynomial(c0, c1, c2, ps[i]))
  }

  /** The first `n` explicit `(COST_2k, COST_2k+1)` pairs of a `MODEL` 1 row.
      The source reads `COST_2k+1` before `COST_2k`, so the first missing
      column is reported as in the source. */
  function ExplicitPairs(g: Generator, n: nat): (r: Result<Curve, CurveError>)
    ensures r.Ok? <==> 2 * n <= |g.costs|
    ensures r.Ok? ==> |r.value.points| == n && |r.value.values| == n
    ensures r.Ok? ==> forall k :: 0 <= k < n ==>
      r.value.points[k] == g.costs[2 * k] && r.value.values[k] == g.costs[2 * k + 1]
    ensures r.Err? ==> r.error == MissingCost(g.name, 2 * (|g.costs| / 2) + 1)
  {
    if n == 0 then Ok(Curve([], []))
    else
      var prev :- ExplicitPairs(g, n - 1);
      var v :- Cost(g, 2 * (n - 1) + 1);
      // COST_2k precedes COST_2k+1, so it is present once the latter is
      Ok(Curve(prev.points + [g.costs[2 * (n - 1)]], prev.values + [v]))
  }

  /** The linear-cost curve of a `MODEL` 2, `NCOST` 2 row: the two points
      `PMIN` and `PMAX`, the upper one raised by 1 when `PMIN == PMAX`. */
  predicate LinearCurve(g: Generator, c: Curve)
    requires |g.costs| >= 2
  {
    && c.points == [g.pmin, if g.pmin == g.pmax then g.pmax + 1.0 else g.pmax]
    && |c.values| == 2
    && forall k :: 0 <= k < 2 ==> c.values[k] == Polynomial(g.costs[0], g.costs[1], 0.0, c.points[k])
  }

  /** The quadratic-cost curve of a `MODEL` 2, `NCOST` 3 row: `segments`
      evenly spaced points from `PMIN` to `PMAX` and the quadratic at each. */
  predicate QuadraticCurve(g: Generator, segments: nat, c: Curve)
    requires |g.costs| >= 3
  {
    && |c.points| == segments
    && EvenlySpaced(c.points, g.pmin, g.pmax)
    && |c.values| == segments
    && forall k :: 0 <= k < segments ==>
         c.values[k] == Polynomial(g.costs[0], g.costs[1], g.costs[2], c.points[k])
  }

  /** The explicit curve of a `MODEL` 1 row: `NCOST` pairs
      `(COST_2k, COST_2k+1)` in column order, with no check that the points
      ascend. */
  predicate ExplicitCurve(g: Generator, c: Curve) {
    && |c.points| == g.ncost
    && |c.values| == g.ncost
    && forall k :: 0 <= k < g.ncost ==>
         2 * k + 1 < |g.costs| && c.points[k] == g.costs[2 * k] && c.values[k] == g.costs[2 * k + 1]
  }

  /** `MODEL` 2 with `NCOST` 2: an affine cost on two breakpoints. */
  function LinearCostCurve(g: Generator): (r: Result<Curve, CurveError>)
    ensures |g.costs| < 2 ==> r == Err(MissingCost(g.name, |g.costs|))
    ensures |g.costs| >= 2 ==> r.Ok? && LinearCurve(g, r.value)
  {
    var increment := if g.pmin == g.pmax then 1.0 else 0.0;
    // `linspace` with two samples is just its two endpoints
    var ps := [g.pmin, g.pmax + increment];
    var c0 :- Cost(g, 0);
    var c1 :- Cost(g, 1);
    Ok(Curve(ps, AffineValues(c0, c1, ps)))
  }

  /** `MODEL` 2 with `NCOST` 3: a quadratic cost sampled at `segments`
      breakpoints. */
  function QuadraticCostCurve(g: Generator, segments: int): (r: Result<Curve, CurveError>)
    ensures segments < 0 ==> r == Err(NegativeCount(g.name, segments))
    ensures segments >= 0 && |g.costs| < 3 ==> r == Err(MissingCost(g.name, |g.costs|))
    ensures segments >= 0 && |g.costs| >= 3 ==> r.Ok? && QuadraticCurve(g, segments, r.value)
  {
    if segments < 0 then Err(NegativeCount(g.name, segments))
    else
      var ps := Linspace(g.pmin, g.pmax, segments);
      var c0 :- Cost(g, 0);
      var c1 :- Cost(g, 1);
      var c2 :- Cost(g, 2);
      Ok(Curve(ps, QuadraticValues(c0, c1, c2, ps)))
  }

  /** `MODEL` 1: `NCOST` explicit pairs; one pair or a negative count fails. */
  function ExplicitCostCurve(g: Generator): (r: Result<Curve, CurveError>)
    ensures g.ncost == 1 ==> r == Err(SinglePointCurve(g.name, 1))
    ensures g.ncost < 0 ==> r == Err(NegativeCount(g.name, g.ncost))
    ensures g.ncost != 1 && g.ncost >= 0 ==> (r.Ok? <==> 2 * g.ncost <= |g.costs|)
    ensures g.ncost != 1 && g.ncost >= 0 && r.Err? ==> r.error == MissingCost(g.name, 2 * (|g.costs| / 2) + 1)
    ensures r.Ok? ==> ExplicitCurve(g, r.value)
  {
    if g.ncost == 1 then Err(SinglePointCurve(g.name, g.ncost))
    else if g.ncost < 0 then Err(NegativeCount(g.name, g.ncost))
    else ExplicitPairs(g, g.ncost)
  }

  /** The curve of one generator row, `None` when its `MODEL` is none of
      0, 1, 2 (no entry is made for it). */
  function GeneratorCurve(g: Generator, segments: int): (r: Result<Option<Curve>, CurveError>)
    ensures r.Ok? ==> (r.value.Some? <==> HasCurveModel(g))
    ensures r.Ok? && r.value.Some? ==> |r.value.value.points| == |r.value.value.values|
    // polynomial costs
    ensures g.costModel == 2 && g.ncost != 2 && g.ncost != 3 ==> r == Err(UnsupportedNcost(g.name, g.ncost))
    ensures g.costModel == 2 && g.ncost == 2 && |g.costs| < 2 ==> r == Err(MissingCost(g.name, |g.costs|))
    ensures g.costModel == 2 && g.ncost == 2 && |g.costs| >= 2 ==>
      r.Ok? && r.value.Some? && LinearCurve(g, r.value.value)
    ensures g.costModel == 2 && g.ncost == 3 && segments < 0 ==> r == Err(NegativeCount(g.name, segments))
    ensures g.costModel == 2 && g.ncost == 3 && segments >= 0 && |g.costs| < 3 ==>
      r == Err(MissingCost(g.name, |g.costs|))
    ensures g.costModel == 2 && g.ncost == 3 && segments >= 0 && |g.costs| >= 3 ==>
      r.Ok? && r.value.Some? && QuadraticCurve(g, segments, r.value.value)
    // explicit pairs
    ensures g.costModel == 1 && g.ncost == 1 ==> r == Err(SinglePointCurve(g.name, 1))
    ensures g.costModel == 1 && g.ncost < 0 ==> r == Err(NegativeCount(g.name, g.ncost))
    ensures g.costModel == 1 && g.ncost != 1 && g.ncost >= 0 ==> (r.Ok? <==> 2 * g.ncost <= |g.costs|)
    ensures g.costModel == 1 && g.ncost != 1 && g.ncost >= 0 && r.Err? ==>
      r.error == MissingCost(g.name, 2 * (|g.costs| / 2) + 1)
    ensures g.costModel == 1 && r.Ok? ==> r.value.Some? && ExplicitCurve(g, r.value.value)
    // no cost
    ensures g.costModel == 0 ==> r == Ok(Some(Curve([0.0, g.pmax], [0.0, 0.01])))
    ensures !HasCurveModel(g) ==> r == Ok(None)
  {
    if g.costModel == 2 then
      if g.ncost == 2 then
        var c :- LinearCostCurve(g);
        Ok(Some(c))
      else if g.ncost == 3 then
        var c :- QuadraticCostCurve(g, segments);
        Ok(Some(c))
      else
        Err(UnsupportedNcost(g.name, g.ncost))
    else if g.costModel == 1 then
      var c :- ExplicitCostCurve(g);
      Ok(Some(c))
    else if g.costModel == 0 then
      Ok(Some(Curve([0.0, g.pmax], [0.0, 0.01])))
    else
      Ok(None)
  }

  /** A linear curve's two points are strictly ascending whenever
      `PMIN <= PMAX`. */
  lemma LinearPointsAscend(g: Generator, c: Curve)
    requires |g.costs| >= 2 && LinearCurve(g, c) && g.pmin <= g.pmax
    ensures c.points[0] < c.points[1]
  {
  }

  /** Quadratic breakpoints ascend whenever `PMIN <= PMAX`, and with
      nonnegative coefficients and output the costs ascend with them. */
  lemma QuadraticCurveAscends(g: Generator, segments: nat, c: Curve)
    requires |g.costs| >= 3 && QuadraticCurve(g, segments, c) && g.pmin <= g.pmax
    ensures NonDecreasing(c.points)
    ensures g.pmin >= 0.0 && g.costs[1] >= 0.0 && g.costs[2] >= 0.0 ==> NonDecreasing(c.values)
  {
    EvenlySpacedAscending(c.points, g.pmin, g.pmax);
    if g.pmin >= 0.0 && g.costs[1] >= 0.0 && g.costs[2] >= 0.0 {
      forall i, j | 0 <= i <= j < |c.values|
        ensures c.values[i] <= c.values[j]
      {
        QuadraticMonotone(g.costs[0], g.costs[1], g.costs[2], c.points[i], c.points[j]);
      }
    }
  }

  lemma QuadraticMonotone(c0: real, c1: real, c2: real, p: real, q: real)
    requires 0.0 <= p <= q && c1 >= 0.0 && c2 >= 0.0
    ensures Polynomial(c0, c1, c2, p) <= Polynomial(c0, c1, c2, q)
  {
    assert p * p <= q * q by {
      assert q * q - p * p == (q - p) * (q + p);
    }
    assert c2 * p * p <= c2 * q * q by {
      assert c2 * q * q - c2 * p * p == c2 * (q * q - p * p);
    }
    assert c1 * p <= c1 * q by {
      assert c1 * q - c1 * p == c1 * (q - p);
    }
  }

  /** Row `i` is the first row whose curve raises. */
  predicate FirstFailure(gens: seq<Generator>, segments: int, i: int) {
    && 0 <= i < |gens|
    && GeneratorCurve(gens[i], segments).Err?
    && forall j :: 0 <= j < i ==> GeneratorCurve(gens[j], segments).Ok?
  }

  /** The first pass of `build_model` over the generator table: every row's
      curve in table order, stopping at the first row that raises. */
  function CollectCurves(gens: seq<Generator>, segments: int): (r: Result<seq<Option<Curve>>, CurveError>)
    ensures r.Ok? <==> forall i :: 0 <= i < |gens| ==> GeneratorCurve(gens[i], segments).Ok?
    ensures r.Ok? ==> |r.value| == |gens|
    ensures r.Ok? ==> forall i :: 0 <= i < |gens| ==> GeneratorCurve(gens[i], segments) == Ok(r.value[i])
    ensures r.Err? ==> exists i :: FirstFailure(gens, segments, i) && GeneratorCurve(gens[i], segments) == Err(r.error)
  {
    if |gens| == 0 then Ok([])
    else
      var c :- GeneratorCurve(gens[0], segments);
      var rest :- CollectCurves(gens[1..], segments);
      assert forall i :: 1 <= i < |gens| ==> gens[i] == gens[1..][i - 1];
      Ok([c] + rest)
  }

  /** True when the curve collected for a row has fewer than two points. */
  predicate ShortCurve(c: Option<Curve>) {
    c.Some? && |c.value.points| < 2
  }

  /** Row `i` holds the first curve with fewer than two points. */
  predicate FirstShort(cs: seq<Option<Curve>>, i: int) {
    && 0 <= i < |cs|
    && ShortCurve(cs[i])
    && forall j :: 0 <= j < i ==> !ShortCurve(cs[j])
  }

  /** The second pass: the first collected curve with fewer than two points
      fails the build. */
  function CheckCurveLengths(gens: seq<Generator>, cs: seq<Option<Curve>>): (r: Result<(), CurveError>)
    requires |cs| == |gens|
    ensures r.Ok? <==> forall i :: 0 <= i < |cs| ==> !ShortCurve(cs[i])
    ensures r.Err? ==> exists i :: FirstShort(cs, i) && r.error == TooFewPoints(gens[i].name, |cs[i].value.points|)
  {
    if |cs| == 0 then Ok(())
    else if ShortCurve(cs[0]) then Err(TooFewPoints(gens[0].name, |cs[0].value.points|))
    else
      var rest := CheckCurveLengths(gens[1..], cs[1..]);
      assert forall i :: 1 <= i < |cs| ==> cs[i] == cs[1..][i - 1] && gens[i] == gens[1..][i - 1];
      rest
  }

  /** Row `i` is the first row whose curve comes out with fewer than two
      points, when every row's curve was built. */
  predicate FirstShortRow(gens: seq<Generator>, segments: int, i: int) {
    && 0 <= i < |gens|
    && GeneratorCurve(gens[i], segments).Ok? && ShortCurve(GeneratorCurve(gens[i], segments).value)
    && forall j :: 0 <= j < i ==>
         GeneratorCurve(gens[j], segments).Ok? && !ShortCurve(GeneratorCurve(gens[j], segments).value)
  }

  /** The error the build fails with: the error of the first row that raises
      in the first pass, or, when every row succeeds there, the length of
      the first short curve. */
  predicate ReportedCurveError(gens: seq<Generator>, segments: int, e: CurveError) {
    || (exists i :: 0 <= i < |gens| && FirstFailure(gens, segments, i) && GeneratorCurve(gens[i], segments) == Err(e))
    || (&& (forall i :: 0 <= i < |gens| ==> GeneratorCurve(gens[i], segments).Ok?)
        && exists i :: 0 <= i < |gens| && FirstShortRow(gens, segments, i) &&
             e == TooFewPoints(gens[i].name, |GeneratorCurve(gens[i], segments).value.value.points|))
  }

  /** The `points`/`values` dictionaries, keyed by generator name, together
      as one curve per generator. Every curve that survives has at least two
      points and as many values as points. */
  function CostCurves(gens: seq<Generator>, segments: int): (r: Result<map<GenId, Curve>, CurveError>)
    requires Distinct(GenNames(gens))
    ensures r.Ok? <==> forall i :: 0 <= i < |gens| ==>
      GeneratorCurve(gens[i], segments).Ok? && !ShortCurve(GeneratorCurve(gens[i], segments).value)
    ensures r.Ok? ==> r.value.Keys == set i | 0 <= i < |gens| && HasCurveModel(gens[i]) :: gens[i].name
    ensures r.Ok? ==> forall i :: 0 <= i < |gens| && HasCurveModel(gens[i]) ==>
      GeneratorCurve(gens[i], segments) == Ok(Some(r.value[gens[i].name]))
    ensures r.Ok? ==> forall g :: g in r.value ==>
      |r.value[g].points| >= 2 && |r.value[g].points| == |r.value[g].values|
    ensures r.Err? ==> ReportedCurveError(gens, segments, r.error)
  {
    var collected := CollectCurves(gens, segments);
    if collected.Err? then
      FirstPassError(gens, segments);
      Err(collected.error)
    else
      var cs := collected.value;
      var check := CheckCurveLengths(gens, cs);
      if check.Err? then
        SecondPassError(gens, segments, cs);
        Err(check.error)
      else
        CurvesBuilt(gens, segments, cs);
        Ok(CurveMap(gens, cs))
  }

  /** A failure in the first pass is the error of its first failing row. */
  lemma FirstPassError(gens: seq<Generator>, segments: int)
    requires CollectCurves(gens, segments).Err?
    ensures ReportedCurveError(gens, segments, CollectCurves(gens, segments).error)
    ensures !forall i :: 0 <= i < |gens| ==> GeneratorCurve(gens[i], segments).Ok?
  {
  }

  /** A failure in the second pass reports the first short curve. */
  lemma SecondPassError(gens: seq<Generator>, segments: int, cs: seq<Option<Curve>>)
    requires CollectCurves(gens, segments) == Ok(cs) && CheckCurveLengths(gens, cs).Err?
    ensures ReportedCurveError(gens, segments, CheckCurveLengths(gens, cs).error)
    ensures !forall i :: 0 <= i < |gens| ==>
      GeneratorCurve(gens[i], segments).Ok? && !ShortCurve(GeneratorCurve(gens[i], segments).value)
  {
    var i :| FirstShort(cs, i) && CheckCurveLengths(gens, cs).error == TooFewPoints(gens[i].name, |cs[i].value.points|);
    assert FirstShortRow(gens, segments, i);
  }

  /** When both passes succeed, the dictionaries hold one curve of at least
      two points for each row with a curve model. */
  lemma CurvesBuilt(gens: seq<Generator>, segments: int, cs: seq<Option<Curve>>)
    requires Distinct(GenNames(gens))
    requires CollectCurves(gens, segments) == Ok(cs) && CheckCurveLengths(gens, cs).Ok?
    ensures forall i :: 0 <= i < |gens| ==>
      GeneratorCurve(gens[i], segments).Ok? && !ShortCurve(GeneratorCurve(gens[i], segments).value)
    ensures CurveMap(gens, cs).Keys == set i | 0 <= i < |gens| && HasCurveModel(gens[i]) :: gens[i].name
    ensures forall i :: 0 <= i < |gens| && HasCurveModel(gens[i]) ==>
      GeneratorCurve(gens[i], segments) == Ok(Some(CurveMap(gens, cs)[gens[i].name]))
    ensures forall g :: g in CurveMap(gens, cs) ==>
      |CurveMap(gens, cs)[g].points| >= 2 && |CurveMap(gens, cs)[g].points| == |CurveMap(gens, cs)[g].values|
  {
    var m := CurveMap(gens, cs);
    assert forall i :: 0 <= i < |gens| ==> (cs[i].Some? <==> HasCurveModel(gens[i]));
    forall g | g in m
      ensures |m[g].points| >= 2 && |m[g].points| == |m[g].values|
    {
      var i :| 0 <= i < |gens| && cs[i] == Some(m[g]);
      assert !ShortCurve(cs[i]);
      assert GeneratorCurve(gens[i], segments) == Ok(cs[i]);
    }
  }

  /** The collected curves keyed by generator name. */
  function CurveMap(gens: seq<Generator>, cs: seq<Option<Curve>>): (m: map<GenId, Curve>)
    requires |cs| == |gens| && Distinct(GenNames(gens))
    ensures m.Keys == set i | 0 <= i < |gens| && cs[i].Some? :: gens[i].name
    ensures forall i :: 0 <= i < |gens| && cs[i].Some? ==> m[gens[i].name] == cs[i].value
    ensures forall g :: g in m ==> exists i :: 0 <= i < |gens| && cs[i] == Some(m[g])
  {
    assert forall i, j :: 0 <= i < j < |gens| ==> gens[i].name != gens[j].name by {
      forall i, j | 0 <= i < j < |gens| ensures gens[i].name != gens[j].name {
        assert GenNames(gens)[i] != GenNames(gens)[j];
      }
    }
    map i | 0 <= i < |gens| && cs[i].Some? :: gens[i].name := cs[i].value
  }

  /** Curves that come out with fewer than two points are rejected by the
      final check: an explicit curve with `NCOST` 0, and a quadratic curve
      sampled at fewer than two points. */
  lemma ShortCurvesRejected(g: Generator, segments: int)
    ensures g.costModel == 1 && g.ncost == 0 ==> CostCurves([g], segments) == Err(TooFewPoints(g.name, 0))
    ensures g.costModel == 2 && g.ncost == 3 && |g.costs| >= 3 && 0 <= segments < 2 ==>
      CostCurves([g], segments) == Err(TooFewPoints(g.name, segments))
  {
    assert Distinct(GenNames([g]));
    assert [g][1..] == [];
  }
}

=== FILE: generator_maps.dfy ===
/** The generator index structures `build_model` derives from the generator
    table: the type partition, the generators attached to each bus, and the
    list of generators with zero maximum output. */
module GeneratorMaps {
  import opened Common
  import opened CaseData

  /** The three generator name sets, each in table order. */
  datatype Fleet = Fleet(thermal: seq<GenId>, renewable: seq<GenId>, hydro: seq<GenId>)

  /** The selector of the rows whose `GEN_TYPE` is `t`. */
  function OfType(t: string): Generator -> bool {
    (g: Generator) => g.genType == t
  }

  /** The names of the generators whose `GEN_TYPE` equals `t`, in table order. */
  function NamesOfType(gens: seq<Generator>, t: string): seq<GenId> {
    GenNames(Filter(gens, OfType(t)))
  }

  /** Splits the generator table by `GEN_TYPE`. Only the exact strings
      "Thermal", "Renewable" and "Hydro" are recognised; a row of any other
      type lands in no set. */
  function PartitionByType(gens: seq<Generator>): (r: Fleet)
    ensures forall x :: x in r.thermal ==> exists g :: g in gens && g.name == x && g.genType == "Thermal"
    ensures forall x :: x in r.renewable ==> exists g :: g in gens && g.name == x && g.genType == "Renewable"
    ensures forall x :: x in r.hydro ==> exists g :: g in gens && g.name == x && g.genType == "Hydro"
    ensures |r.thermal| + |r.renewable| + |r.hydro| <= |gens|
  {
    var r := Fleet(NamesOfType(gens, "Thermal"), NamesOfType(gens, "Renewable"), NamesOfType(gens, "Hydro"));
    NamesOfTypeSound(gens, "Thermal");
    NamesOfTypeSound(gens, "Renewable");
    NamesOfTypeSound(gens, "Hydro");
    FilterTypesBound(gens);
    r
  }

  lemma NamesOfTypeSound(gens: seq<Generator>, t: string)
    ensures forall x :: x in NamesOfType(gens, t) ==> exists g :: g in gens && g.name == x && g.genType == t
  {
    FilterMembers(gens, OfType(t));
    forall x | x in NamesOfType(gens, t)
      ensures exists g :: g in gens && g.name == x && g.genType == t
    {
      var i :| 0 <= i < |NamesOfType(gens, t)| && NamesOfType(gens, t)[i] == x;
      assert Filter(gens, OfType(t))[i] in Filter(gens, OfType(t));
    }
  }

  /** The three filters together keep at most every row once. */
  lemma {:induction false} FilterTypesBound(gens: seq<Generator>)
    ensures |Filter(gens, OfType("Thermal"))| + |Filter(gens, OfType("Renewable"))| + |Filter(gens, OfType("Hydro"))| <= |gens|
    decreases |gens|
  {
    if |gens| > 0 {
      FilterTypesBound(gens[..|gens| - 1]);
    }
  }

  /** With distinct names, a generator of a recognised type is in exactly
      the set of its type, once, and in neither of the other two; a generator
      of any other type is in none. */
  lemma PartitionExactlyOnce(gens: seq<Generator>, k: nat)
    requires k < |gens| && Distinct(GenNames(gens))
    ensures Count(PartitionByType(gens).thermal, gens[k].name) == if gens[k].genType == "Thermal" then 1 else 0
    ensures Count(PartitionByType(gens).renewable, gens[k].name) == if gens[k].genType == "Renewable" then 1 else 0
    ensures Count(PartitionByType(gens).hydro, gens[k].name) == if gens[k].genType == "Hydro" then 1 else 0
  {
    FilterProjectCount(gens, OfType("Thermal"), GenName, k);
    FilterProjectCount(gens, OfType("Renewable"), GenName, k);
    FilterProjectCount(gens, OfType("Hydro"), GenName, k);
  }

  /** The generators attached to bus `b`, in table order. */
  function GeneratorsAt(gens: seq<Generator>, b: BusId): seq<GenId> {
    if |gens| == 0 then []
    else GeneratorsAt(gens[..|gens| - 1], b) + (if gens[|gens| - 1].bus == b then [gens[|gens| - 1].name] else [])
  }

  /** The distinct `GEN_BUS` values. */
  function GenBuses(gens: seq<Generator>): set<BusId> {
    set g | g in gens :: g.bus
  }

  /** Builds `generator_at_bus`: one list per distinct `GEN_BUS` value,
      filled by walking the generator table in order. */
  method GeneratorAtBus(gens: seq<Generator>) returns (m: map<BusId, seq<GenId>>)
    ensures m.Keys == GenBuses(gens)
    ensures forall b :: b in m ==> m[b] == GeneratorsAt(gens, b)
    ensures forall b :: b in m ==> |m[b]| > 0
  {
    m := map b | b in GenBuses(gens) :: [];
    var i := 0;
    while i < |gens|
      invariant 0 <= i <= |gens|
      invariant m.Keys == GenBuses(gens)
      invariant forall b :: b in m ==> m[b] == GeneratorsAt(gens[..i], b)
    {
      var g := gens[i];
      assert g in gens;
      assert gens[..i + 1][..i] == gens[..i];
      m := m[g.bus := m[g.bus] + [g.name]];
      i := i + 1;
    }
    assert gens[..|gens|] == gens;
    forall b | b in m
      ensures |m[b]| > 0
    {
      var g :| g in gens && g.bus == b;
      AttachedGeneratorListed(gens, g);
    }
  }

  /** The selector of the rows whose `GEN_BUS` is `b`. */
  function AtBus(b: BusId): Generator -> bool {
    (g: Generator) => g.bus == b
  }

  lemma {:induction false} GeneratorsAtIsFilter(gens: seq<Generator>, b: BusId)
    ensures GeneratorsAt(gens, b) == GenNames(Filter(gens, AtBus(b)))
    decreases |gens|
  {
    if |gens| > 0 {
      var init := gens[..|gens| - 1];
      var g := gens[|gens| - 1];
      GeneratorsAtIsFilter(init, b);
      ProjectConcat(Filter(init, AtBus(b)), if g.bus == b then [g] else [], GenName);
    }
  }

  /** A generator's name is on the list of its own bus. */
  lemma AttachedGeneratorListed(gens: seq<Generator>, g: Generator)
    requires g in gens
    ensures g.name in GeneratorsAt(gens, g.bus)
  {
    GeneratorsAtIsFilter(gens, g.bus);
    FilterMembers(gens, AtBus(g.bus));
    var i :| 0 <= i < |Filter(gens, AtBus(g.bus))| && Filter(gens, AtBus(g.bus))[i] == g;
    assert GenNames(Filter(gens, AtBus(g.bus)))[i] == g.name;
  }

  /** With distinct names, each generator is listed exactly once, under its
      own `GEN_BUS`, and under no other bus. */
  lemma EachGeneratorListedOnce(gens: seq<Generator>, k: nat, b: BusId)
    requires k < |gens| && Distinct(GenNames(gens))
    ensures Count(GeneratorsAt(gens, b), gens[k].name) == if gens[k].bus == b then 1 else 0
  {
    GeneratorsAtIsFilter(gens, b);
    FilterProjectCount(gens, AtBus(b), GenName, k);
  }

  predicate HasZeroPmax(g: Generator) {
    g.pmax == 0.0
  }

  /** The generators whose `PMAX` is zero, in table order (the list the
      source warns about; the rows stay in the model). */
  function ZeroCapacity(gens: seq<Generator>): (r: seq<GenId>)
    ensures forall x :: x in r ==> exists g :: g in gens && g.name == x && g.pmax == 0.0
    ensures forall g :: g in gens && g.pmax == 0.0 ==> g.name in r
  {
    var kept := Filter(gens, HasZeroPmax);
    FilterMembers(gens, HasZeroPmax);
    assert forall i :: 0 <= i < |kept| ==> kept[i] in kept;
    assert forall g :: g in kept ==> exists i :: 0 <= i < |kept| && kept[i] == g && GenNames(kept)[i] == g.name;
    GenNames(kept)
  }
}

=== FILE: initial_state.dfy ===
/** Derivation of each generator's signed initial state from its previous
    commitment history (the `initial_state_dict` of `build_model`).

    A history is the column of the previous unit-commitment table for one
    generator, one entry per row, each row carrying its period label. The
    source diffs the column, finds the last nonzero diff and classifies it;
    without any change it classifies the first entry. The magnitude is the
    number of load periods minus the deciding row's label. */
module InitialStates {
  import opened Common
  import opened CaseData

  datatype InitialStateError =
    /** `int()` of the empty label array of a zero-period history. */
    EmptyHistory(gen: GenId)

  /** True when every entry of `h` is a 0/1 commitment. */
  predicate Binary(h: seq<int>) {
    forall t :: 0 <= t < |h| ==> h[t] == 0 || h[t] == 1
  }

  /** The position of the last period-to-period change in `h`: the largest
      `k` with `h[k] != h[k-1]`, or `None` when `h` is constant. */
  function LastChange(h: seq<int>): (r: Option<nat>)
    ensures r.Some? ==> 1 <= r.value < |h| && h[r.value] != h[r.value - 1]
    ensures r.Some? ==> forall k :: r.value < k < |h| ==> h[k] == h[k - 1]
    ensures r.None? ==> forall k :: 1 <= k < |h| ==> h[k] == h[k - 1]
  {
    if |h| < 2 then None
    else if h[|h| - 1] != h[|h| - 2] then Some(|h| - 1)
    else LastChange(h[..|h| - 1])
  }

  /** The row whose entry decides the initial state: the last change when
      there is one, otherwise the first row. */
  function DecidingRow(h: seq<int>): (row: nat)
    requires |h| > 0
    ensures row < |h|
    ensures LastChange(h).None? ==> row == 0
    ensures LastChange(h).Some? ==> row == LastChange(h).value
  {
    match LastChange(h)
    case None => 0
    case Some(k) => k
  }

  /** The signed initial state of one generator, as `build_model` computes
      it from the history `h`, its row labels `labels` and the number of load
      periods `horizon`: the deciding row is the last nonzero diff (value
      `h[k] - h[k-1]`) or, when the history never changes, the first entry
      (value `h[0]`). A deciding value of -1 or 0 gives
      `-(horizon - label)`, any other value `horizon - label`, where `label`
      is the deciding row's label. */
  function InitialState(gen: GenId, h: seq<int>, labels: seq<Period>, horizon: int): (r: Result<int, InitialStateError>)
    requires |labels| == |h|
    ensures r.Err? <==> |h| == 0
    ensures r.Err? ==> r.error == EmptyHistory(gen)
    ensures r.Ok? ==>
      r.value == horizon - labels[DecidingRow(h)] || r.value == -(horizon - labels[DecidingRow(h)])
  {
    if |h| == 0 then Err(EmptyHistory(gen))
    else
      var (value, row) :=
        match LastChange(h)
        case None => (h[0], 0)
        case Some(k) => (h[k] - h[k - 1], k);
      if value == -1 || value == 0 then Ok(-(horizon - labels[row])) else Ok(horizon - labels[row])
  }

  /** The length of the run of equal values that ends `h`, defined
      independently of diffs. */
  function TrailingRun(h: seq<int>): (r: nat)
    requires |h| > 0
    ensures 1 <= r <= |h|
    ensures forall k :: |h| - r <= k < |h| ==> h[k] == h[|h| - 1]
    ensures r < |h| ==> h[|h| - r - 1] != h[|h| - 1]
  {
    if |h| == 1 || h[|h| - 1] != h[|h| - 2] then 1
    else 1 + TrailingRun(h[..|h| - 1])
  }

  /** The last change sits exactly where the trailing run begins. */
  lemma {:induction false} LastChangeStartsTrailingRun(h: seq<int>)
    requires |h| > 0
    ensures LastChange(h).None? ==> TrailingRun(h) == |h|
    ensures LastChange(h).Some? ==> TrailingRun(h) == |h| - LastChange(h).value
  {
    if |h| == 1 || h[|h| - 1] != h[|h| - 2] {
    } else {
      LastChangeStartsTrailingRun(h[..|h| - 1]);
    }
  }

  /** For a 0/1 history the deciding row is where the trailing run of equal
      entries begins, and the sign follows the last entry: positive when the
      generator was on in the last period, negative when it was off. */
  lemma InitialStateIsSignedTrailingRun(gen: GenId, h: seq<int>, labels: seq<Period>, horizon: int)
    requires |h| > 0 && Binary(h) && |labels| == |h|
    ensures InitialState(gen, h, labels, horizon).Ok?
    ensures var n := horizon - labels[|h| - TrailingRun(h)];
      InitialState(gen, h, labels, horizon).value == (if h[|h| - 1] == 1 then n else -n)
  {
    LastChangeStartsTrailingRun(h);
    match LastChange(h)
    case None =>
      AllEqualToFirst(h, |h| - 1);
    case Some(k) =>
      assert h[k] == h[|h| - 1] by { ConstantAfter(h, k, |h| - 1); }
  }

  /** When the rows are labelled by their positions `0 .. T-1` and the
      horizon is the history's length `T`, the initial state is the trailing
      run length, positive exactly when the last entry is 1. */
  lemma PositionLabelsGiveTrailingRun(gen: GenId, h: seq<int>, labels: seq<Period>)
    requires |h| > 0 && Binary(h) && |labels| == |h|
    requires forall t :: 0 <= t < |labels| ==> labels[t] == t
    ensures InitialState(gen, h, labels, |h|).Ok?
    ensures InitialState(gen, h, labels, |h|).value > 0 <==> h[|h| - 1] == 1
    ensures InitialState(gen, h, labels, |h|).value ==
      (if h[|h| - 1] == 1 then TrailingRun(h) else -(TrailingRun(h) as int))
  {
    InitialStateIsSignedTrailingRun(gen, h, labels, |h|);
  }

  /** Worked histories of four periods. With labels 0..3: always on gives +4
      and switched off at period 2 gives -2. With labels 1..4, as a load table
      numbered from 1 has, always off gives -3, not -4. */
  lemma InitialStateExamples(gen: GenId)
    ensures InitialState(gen, [1, 1, 1, 1], [0, 1, 2, 3], 4) == Ok(4)
    ensures InitialState(gen, [1, 1, 0, 0], [0, 1, 2, 3], 4) == Ok(-2)
    ensures InitialState(gen, [0, 0, 0, 0], [1, 2, 3, 4], 4) == Ok(-3)
  {
    assert LastChange([1, 1, 1, 1]) == None by {
      assert [1, 1, 1, 1][..3] == [1, 1, 1];
      assert [1, 1, 1][..2] == [1, 1];
    }
    assert LastChange([1, 1, 0, 0]) == Some(2) by {
      assert [1, 1, 0, 0][..3] == [1, 1, 0];
    }
    assert LastChange([0, 0, 0, 0]) == None by {
      assert [0, 0, 0, 0][..3] == [0, 0, 0];
      assert [0, 0, 0][..2] == [0, 0];
    }
  }

  /** In a history with no change after `k`, every later entry equals `h[k]`. */
  lemma {:induction false} ConstantAfter(h: seq<int>, k: nat, j: nat)
    requires k <= j < |h|
    requires forall i :: k < i < |h| ==> h[i] == h[i - 1]
    ensures h[j] == h[k]
    decreases j - k
  {
    if j > k {
      ConstantAfter(h, k, j - 1);
    }
  }

  lemma AllEqualToFirst(h: seq<int>, j: nat)
    requires j < |h|
    requires forall i :: 1 <= i < |h| ==> h[i] == h[i - 1]
    ensures h[j] == h[0]
  {
    ConstantAfter(h, 0, j);
  }

  /** The all-zero history used when no previous commitment is given. */
  function ZeroHistory(periods: nat): (r: seq<int>)
    ensures |r| == periods && Binary(r)
  {
    seq(periods, _ => 0)
  }

  /** An all-zero history never changes, so its first row decides: the
      initial state is `-(horizon - label of the first row)`. */
  lemma DefaultHistoryIsOffForHorizon(gen: GenId, labels: seq<Period>, horizon: int)
    requires |labels| > 0
    ensures InitialState(gen, ZeroHistory(|labels|), labels, horizon) == Ok(-(horizon - labels[0]))
  {
    var h := ZeroHistory(|labels|);
    InitialStateIsSignedTrailingRun(gen, h, labels, horizon);
    assert forall k :: 0 <= k < |h| ==> h[k] == 0;
  }

  /** The initial states of all generators, one per column of the previous
      commitment table, whose row labels are the period labels; `horizon` is
      the number of load periods. A table with columns but no rows fails on
      its first column. */
  function InitialStates(history: Table<int>, horizon: int): (r: Result<map<GenId, int>, InitialStateError>)
    requires WellFormedTable(history)
    ensures r.Err? <==> |history.index| == 0 && |history.columns| > 0
    ensures r.Err? ==> r.error == EmptyHistory(history.columns[0])
    ensures r.Ok? ==> r.value.Keys == set g | g in history.columns
    ensures r.Ok? ==> forall j :: 0 <= j < |history.columns| ==>
      Ok(r.value[history.columns[j]]) == InitialState(history.columns[j], Column(history, j), history.index, horizon)
  {
    if |history.columns| == 0 then Ok(map[])
    else if |history.index| == 0 then Err(EmptyHistory(history.columns[0]))
    else
      assert history.columns[..|history.columns|] == history.columns;
      Ok(StatesOf(history, horizon, |history.columns|))
  }

  /** The initial states of the first `j` columns of a table with rows. */
  function StatesOf(history: Table<int>, horizon: int, j: nat): (m: map<GenId, int>)
    requires WellFormedTable(history) && |history.index| > 0 && j <= |history.columns|
    ensures forall g :: g in m <==> g in history.columns[..j]
    ensures forall k :: 0 <= k < j ==>
      && history.columns[k] in m
      && Ok(m[history.columns[k]]) == InitialState(history.columns[k], Column(history, k), history.index, horizon)
  {
    if j == 0 then map[]
    else
      assert history.columns[..j] == history.columns[..j - 1] + [history.columns[j - 1]];
      assert forall k :: 0 <= k < j - 1 ==> history.columns[k] != history.columns[j - 1];
      StatesOf(history, horizon, j - 1)[history.columns[j - 1] :=
        InitialState(history.columns[j - 1], Column(history, j - 1), history.index, horizon).value]
  }

  /** The history `build_model` uses when none is given: an all-zero table
      with the load table's periods as rows and one column per generator
      name; a repeated name gives a single column, as the dictionary the
      table is built from has one key per name. */
  function DefaultHistory(gens: seq<GenId>, periods: seq<Period>): (r: Table<int>)
    ensures WellFormedTable(r) && r.index == periods
    ensures forall g :: g in r.columns <==> g in gens
    ensures forall j :: 0 <= j < |r.columns| ==> Column(r, j) == ZeroHistory(|periods|)
  {
    var names := Dedup(gens);
    Table(periods, names, seq(|periods|, _ => seq(|names|, _ => 0)))
  }

  /** Without a previous commitment, with `T > 0` load periods whose first
      label is `p0`, every generator's initial state is `-(T - p0)`: `-T`
      when the periods are numbered from 0. */
  lemma DefaultInitialStatesAreOff(gens: seq<GenId>, periods: seq<Period>)
    requires |periods| > 0
    ensures InitialStates(DefaultHistory(gens, periods), |periods|).Ok?
    ensures forall g :: g in gens ==>
      InitialStates(DefaultHistory(gens, periods), |periods|).value[g] == -(|periods| - periods[0])
  {
    var t := DefaultHistory(gens, periods);
    var states := InitialStates(t, |periods|);
    assert states.Ok?;
    forall g | g in gens
      ensures states.value[g] == -(|periods| - periods[0])
    {
      assert g in t.columns;
      var j := IndexOf(t.columns, g);
      assert Column(t, j) == ZeroHistory(|periods|);
      assert Ok(states.value[g]) == InitialState(g, ZeroHistory(|periods|), periods, |periods|);
      DefaultHistoryIsOffForHorizon(g, periods, |periods|);
    }
  }
}

=== FILE: network.dfy ===
/** The per-bus incidence lists `lines_from` and `lines_to` that
    `build_model` derives from the branch table. */
module Network {
  import opened Common
  import opened CaseData

  datatype NetworkError =
    /** `KeyError`: a line names a bus that is not in the bus table. */
    UnknownBus(bus: BusId)

  /** For every bus, the names of the lines that start and that end there. */
  datatype Incidence = Incidence(linesFrom: map<BusId, seq<LineId>>, linesTo: map<BusId, seq<LineId>>)

  /** The lines starting at `b`, in branch-table order. */
  function LinesFrom(lines: seq<Line>, b: BusId): seq<LineId> {
    if |lines| == 0 then []
    else LinesFrom(lines[..|lines| - 1], b) + (if lines[|lines| - 1].fromBus == b then [lines[|lines| - 1].name] else [])
  }

  /** The lines ending at `b`, in branch-table order. */
  function LinesTo(lines: seq<Line>, b: BusId): seq<LineId> {
    if |lines| == 0 then []
    else LinesTo(lines[..|lines| - 1], b) + (if lines[|lines| - 1].toBus == b then [lines[|lines| - 1].name] else [])
  }

  predicate KnownEnds(buses: seq<BusId>, l: Line) {
    l.fromBus in buses && l.toBus in buses
  }

  /** The bus whose lookup fails first for a line: `F_BUS` is looked up
      before `T_BUS`. */
  function MissingEnd(buses: seq<BusId>, l: Line): BusId {
    if l.fromBus !in buses then l.fromBus else l.toBus
  }

  /** Every line of the branch table names known buses at both ends. */
  predicate AllKnownEnds(buses: seq<BusId>, lines: seq<Line>) {
    forall k :: 0 <= k < |lines| ==> KnownEnds(buses, lines[k])
  }

  /** Line `k` is the first line that names an unknown bus. */
  predicate FirstUnknown(buses: seq<BusId>, lines: seq<Line>, k: int) {
    && 0 <= k < |lines|
    && !KnownEnds(buses, lines[k])
    && forall j :: 0 <= j < k ==> KnownEnds(buses, lines[j])
  }

  /** The incidence of the first lines of the branch table: every bus of
      the bus table with the lines that start and that end there. */
  function IncidenceOf(buses: seq<BusId>, lines: seq<Line>): (r: Incidence)
    ensures r.linesFrom.Keys == (set b | b in buses) && r.linesTo.Keys == (set b | b in buses)
    ensures forall b :: b in buses ==> r.linesFrom[b] == LinesFrom(lines, b) && r.linesTo[b] == LinesTo(lines, b)
  {
    Incidence(map b | b in buses :: LinesFrom(lines, b), map b | b in buses :: LinesTo(lines, b))
  }

  /** Builds both incidence maps by walking the branch table in order,
      appending each line to the list of its `F_BUS` and of its `T_BUS`. */
  method BuildIncidence(buses: seq<BusId>, lines: seq<Line>) returns (r: Result<Incidence, NetworkError>)
    ensures r.Ok? <==> AllKnownEnds(buses, lines)
    ensures r.Err? ==> exists k :: FirstUnknown(buses, lines, k) && r.error == UnknownBus(MissingEnd(buses, lines[k]))
    ensures r.Ok? ==> r.value == IncidenceOf(buses, lines)
  {
    var inc := Incidence(map b | b in buses :: [], map b | b in buses :: []);
    EmptyIncidence(buses, lines);
    var i := 0;
    while i < |lines|
      invariant 0 <= i <= |lines|
      invariant AllKnownEnds(buses, lines[..i])
      invariant inc == IncidenceOf(buses, lines[..i])
    {
      var step := AppendLine(buses, lines, i, inc);
      if step.Err? {
        KnownEndsPrefix(buses, lines, i);
        return Err(step.error);
      }
      KnownEndsPrefix(buses, lines, i);
      inc, i := step.value, i + 1;
    }
    assert lines[..|lines|] == lines;
    return Ok(inc);
  }

  /** Extending the checked prefix by line `i`: either that line is the
      first with an unknown bus, or the longer prefix is all known. */
  lemma KnownEndsPrefix(buses: seq<BusId>, lines: seq<Line>, i: nat)
    requires i < |lines| && AllKnownEnds(buses, lines[..i])
    ensures !KnownEnds(buses, lines[i]) ==> FirstUnknown(buses, lines, i)
    ensures KnownEnds(buses, lines[i]) ==> AllKnownEnds(buses, lines[..i + 1])
  {
    assert forall k :: 0 <= k < i ==> lines[..i][k] == lines[k];
    assert forall k :: 0 <= k <= i ==> lines[..i + 1][k] == lines[k];
  }

  /** Before any line is read, every bus has two empty lists. */
  lemma EmptyIncidence(buses: seq<BusId>, lines: seq<Line>)
    ensures Incidence(map b | b in buses :: [], map b | b in buses :: []) == IncidenceOf(buses, lines[..0])
  {
    assert lines[..0] == [];
  }

  /** One step of the walk: looks up the `F_BUS` list of line `i` and
      appends the line, then does the same for its `T_BUS`; the first lookup
      that fails raises. */
  method AppendLine(buses: seq<BusId>, lines: seq<Line>, i: nat, inc: Incidence)
    returns (r: Result<Incidence, NetworkError>)
    requires i < |lines| && inc == IncidenceOf(buses, lines[..i])
    ensures r.Ok? <==> KnownEnds(buses, lines[i])
    ensures r.Err? ==> r.error == UnknownBus(MissingEnd(buses, lines[i]))
    ensures r.Ok? ==> r.value == IncidenceOf(buses, lines[..i + 1])
  {
    var (from, to) := (inc.linesFrom, inc.linesTo);
    var l := lines[i];
    if l.fromBus !in from {
      return Err(UnknownBus(l.fromBus));
    }
    var from' := from[l.fromBus := from[l.fromBus] + [l.name]];
    if l.toBus !in to {
      return Err(UnknownBus(l.toBus));
    }
    var to' := to[l.toBus := to[l.toBus] + [l.name]];
    IncidenceExtend(buses, lines, i, from, to);
    return Ok(Incidence(from', to'));
  }

  /** Appending line `i` to the lists of its two end buses turns the
      incidence of the first `i` lines into that of the first `i + 1`. */
  lemma IncidenceExtend(buses: seq<BusId>, lines: seq<Line>, i: nat,
                        from: map<BusId, seq<LineId>>, to: map<BusId, seq<LineId>>)
    requires i < |lines| && Incidence(from, to) == IncidenceOf(buses, lines[..i])
    requires lines[i].fromBus in from && lines[i].toBus in to
    ensures KnownEnds(buses, lines[i])
    ensures Incidence(from[lines[i].fromBus := from[lines[i].fromBus] + [lines[i].name]],
                      to[lines[i].toBus := to[lines[i].toBus] + [lines[i].name]])
         == IncidenceOf(buses, lines[..i + 1])
  {
    IncidenceSnoc(lines, i);
    var after := IncidenceOf(buses, lines[..i + 1]);
    var l := lines[i];
    var from' := from[l.fromBus := from[l.fromBus] + [l.name]];
    var to' := to[l.toBus := to[l.toBus] + [l.name]];
    assert after.linesFrom.Keys == from'.Keys;
    assert after.linesTo.Keys == to'.Keys;
    assert forall b :: b in from' ==> after.linesFrom[b] == from'[b];
    assert forall b :: b in to' ==> after.linesTo[b] == to'[b];
  }

  /** Taking one more line extends the lists of its two end buses only. */
  lemma IncidenceSnoc(lines: seq<Line>, i: nat)
    requires i < |lines|
    ensures forall b ::
      LinesFrom(lines[..i + 1], b) == LinesFrom(lines[..i], b) + (if lines[i].fromBus == b then [lines[i].name] else [])
    ensures forall b ::
      LinesTo(lines[..i + 1], b) == LinesTo(lines[..i], b) + (if lines[i].toBus == b then [lines[i].name] else [])
  {
    assert lines[..i + 1][..i] == lines[..i];
  }

  /** The selector of the lines that start at `b`. */
  function StartsAt(b: BusId): Line -> bool {
    (l: Line) => l.fromBus == b
  }

  /** The selector of the lines that end at `b`. */
  function EndsAt(b: BusId): Line -> bool {
    (l: Line) => l.toBus == b
  }

  /** The incidence lists are the filtered line names. */
  lemma {:induction false} IncidenceIsFilter(lines: seq<Line>, b: BusId)
    ensures LinesFrom(lines, b) == LineNames(Filter(lines, StartsAt(b)))
    ensures LinesTo(lines, b) == LineNames(Filter(lines, EndsAt(b)))
    decreases |lines|
  {
    if |lines| > 0 {
      var init := lines[..|lines| - 1];
      var l := lines[|lines| - 1];
      IncidenceIsFilter(init, b);
      ProjectConcat(Filter(init, StartsAt(b)), if l.fromBus == b then [l] else [], LineName);
      ProjectConcat(Filter(init, EndsAt(b)), if l.toBus == b then [l] else [], LineName);
    }
  }

  /** With distinct line names, every line is listed exactly once under its
      `F_BUS` and exactly once under its `T_BUS`, and under no other bus. */
  lemma EachLineListedOnce(lines: seq<Line>, k: nat, b: BusId)
    requires k < |lines| && Distinct(LineNames(lines))
    ensures Count(LinesFrom(lines, b), lines[k].name) == if lines[k].fromBus == b then 1 else 0
    ensures Count(LinesTo(lines, b), lines[k].name) == if lines[k].toBus == b then 1 else 0
  {
    IncidenceIsFilter(lines, b);
    FilterProjectCount(lines, StartsAt(b), LineName, k);
    FilterProjectCount(lines, EndsAt(b), LineName, k);
  }
}

=== FILE: options.dfy ===
/** The option handling at the head of `build_model`: the five settings read
    from the `config` dictionary, the defaults of the three reserve factors,
    and the check of the market type near the end of model building. */
module Options {
  import opened Common

  /** A value stored in the `config` dictionary. */
  datatype ConfigValue = BoolValue(b: bool) | IntValue(i: int) | StrValue(s: string)

  type Config = map<string, ConfigValue>

  /** The five settings `build_model` pops from `config`. */
  datatype Settings = Settings(
    usePtdf: ConfigValue,
    segments: ConfigValue,
    hasGlobalReserves: ConfigValue,
    resolve: ConfigValue,
    marketType: ConfigValue)

  const UsePtdfKey := "use_ptdf"
  const SegmentsKey := "segments"
  const GlobalReservesKey := "has_global_reserves"
  const ResolveKey := "resolve"
  const MarketTypeKey := "market_type"

  /** The keys `build_model` consumes. */
  const SettingKeys: set<string> := {UsePtdfKey, SegmentsKey, GlobalReservesKey, ResolveKey, MarketTypeKey}

  /** The settings in force when `config` holds none of the keys. */
  const DefaultSettings := Settings(BoolValue(false), IntValue(2), BoolValue(true), BoolValue(false), StrValue("day_ahead"))

  /** `config.pop(key, default)`: the stored value, or the default when the
      key is absent, together with the dictionary without the key. */
  function Pop(config: Config, key: string, default: ConfigValue): (r: (ConfigValue, Config))
    ensures r.1.Keys == config.Keys - {key}
    ensures forall k :: k in r.1 ==> r.1[k] == config[k]
    ensures key in config ==> r.0 == config[key]
    ensures key !in config ==> r.0 == default
  {
    (if key in config then config[key] else default, config - {key})
  }

  /** The configuration dictionary `build_model` works on: an absent
      dictionary is an empty one. */
  function ConfigOrEmpty(config: Option<Config>): Config {
    if config.Some? then config.value else map[]
  }

  /** Reads the five settings, in the source's order, from `config`. Each
      setting is the stored value or its default; the dictionary left behind,
      which is what a caller's dictionary holds afterwards, has lost exactly
      those five keys. */
  function ReadSettings(config: Option<Config>): (r: (Settings, Config))
    ensures var c := ConfigOrEmpty(config);
      && (UsePtdfKey in c ==> r.0.usePtdf == c[UsePtdfKey])
      && (SegmentsKey in c ==> r.0.segments == c[SegmentsKey])
      && (GlobalReservesKey in c ==> r.0.hasGlobalReserves == c[GlobalReservesKey])
      && (ResolveKey in c ==> r.0.resolve == c[ResolveKey])
      && (MarketTypeKey in c ==> r.0.marketType == c[MarketTypeKey])
    ensures var c := ConfigOrEmpty(config);
      && (UsePtdfKey !in c ==> r.0.usePtdf == DefaultSettings.usePtdf)
      && (SegmentsKey !in c ==> r.0.segments == DefaultSettings.segments)
      && (GlobalReservesKey !in c ==> r.0.hasGlobalReserves == DefaultSettings.hasGlobalReserves)
      && (ResolveKey !in c ==> r.0.resolve == DefaultSettings.resolve)
      && (MarketTypeKey !in c ==> r.0.marketType == DefaultSettings.marketType)
    ensures r.1.Keys == ConfigOrEmpty(config).Keys - SettingKeys
    ensures forall k :: k in r.1 ==> r.1[k] == ConfigOrEmpty(config)[k]
  {
    var c0 := ConfigOrEmpty(config);
    var (usePtdf, c1) := Pop(c0, UsePtdfKey, DefaultSettings.usePtdf);
    var (segments, c2) := Pop(c1, SegmentsKey, DefaultSettings.segments);
    var (hasGlobalReserves, c3) := Pop(c2, GlobalReservesKey, DefaultSettings.hasGlobalReserves);
    var (resolve, c4) := Pop(c3, ResolveKey, DefaultSettings.resolve);
    var (marketType, c5) := Pop(c4, MarketTypeKey, DefaultSettings.marketType);
    (Settings(usePtdf, segments, hasGlobalReserves, resolve, marketType), c5)
  }

  /** Reading the settings consumes them: reading again from what is left
      gives the defaults and leaves the dictionary as it is. */
  lemma ReadSettingsConsumes(config: Option<Config>)
    ensures ReadSettings(Some(ReadSettings(config).1)) == (DefaultSettings, ReadSettings(config).1)
  {
    var rest := ReadSettings(config).1;
    var again := ReadSettings(Some(rest));
    assert again.1 == rest;
  }

  /** Without a dictionary every setting takes its default. */
  lemma AbsentConfigGivesDefaults()
    ensures ReadSettings(None) == (DefaultSettings, map[])
  {
  }

  /** The three reserve factors after defaulting. */
  datatype ReserveFactors = ReserveFactors(reserve: real, regulating: Option<real>, flexibleRamp: real)

  /** Applies the three `is None` tests in the source's order. A missing
      regulating factor zeroes the global reserve factor, not itself, so the
      regulating factor may stay absent. */
  method DefaultReserveFactors(reserve: Option<real>, regulating: Option<real>, flexibleRamp: Option<real>)
    returns (r: ReserveFactors)
    ensures r.reserve == if reserve.Some? && regulating.Some? then reserve.value else 0.0
    ensures r.regulating == regulating
    ensures r.flexibleRamp == if flexibleRamp.Some? then flexibleRamp.value else 0.0
  {
    var reserveFactor := reserve;
    var regulatingFactor := regulating;
    var flexibleFactor := flexibleRamp;
    if reserveFactor.None? {
      reserveFactor := Some(0.0);
    }
    if regulatingFactor.None? {
      reserveFactor := Some(0.0);
    }
    if flexibleFactor.None? {
      flexibleFactor := Some(0.0);
    }
    r := ReserveFactors(reserveFactor.value, regulatingFactor, flexibleFactor.value);
  }

  /** The market types model building accepts. */
  datatype MarketType = DayAhead | HourlyAhead | RealTime

  datatype OptionError = UnknownMarketType(value: ConfigValue)

  function MarketName(m: MarketType): string {
    match m
    case DayAhead => "day_ahead"
    case HourlyAhead => "hourly_ahead"
    case RealTime => "real_time"
  }

  /** The market-type dispatch: the three known names are accepted (each adds
      the same flexible-ramping constraints); any other value, including a
      value that is not a string, is rejected. */
  function CheckMarketType(v: ConfigValue): (r: Result<MarketType, OptionError>)
    ensures r.Ok? <==> v.StrValue? && v.s in {"day_ahead", "hourly_ahead", "real_time"}
    ensures r.Ok? ==> v == StrValue(MarketName(r.value))
    ensures r.Err? ==> r.error == UnknownMarketType(v)
  {
    if v == StrValue("day_ahead") then Ok(DayAhead)
    else if v == StrValue("hourly_ahead") then Ok(HourlyAhead)
    else if v == StrValue("real_time") then Ok(RealTime)
    else Err(UnknownMarketType(v))
  }

  /** Each market type's name is accepted and read back as that type. */
  lemma MarketNameRoundTrip(m: MarketType)
    ensures CheckMarketType(StrValue(MarketName(m))) == Ok(m)
  {
  }

  /** The default market type passes the check. */
  lemma DefaultMarketTypeAccepted()
    ensures CheckMarketType(DefaultSettings.marketType) == Ok(DayAhead)
  {
  }
}

=== FILE: solve.dfy ===
/** `PSSTModel.solve`: a mixed-integer solve, optionally followed by a
    resolve that fixes the commitment decisions, switches off the
    up/down-time constraints and solves the remaining continuous problem.
    The solver is a parameter: it sees the model state and whether the
    problem is solved as a MIP, and it either fails or returns the
    commitment table. */
module Solve {
  import opened Common
  import opened CaseData

  /** The constraint groups of the built model. The four up/down-time groups
      are the ones the resolve switches off; every other group is `Other`. */
  datatype ConstraintGroup =
    | UpTimeInitial
    | UpTimeSubsequent
    | DownTimeInitial
    | DownTimeSubsequent
    | Other(name: string)

  const UpDownTimeGroups: set<ConstraintGroup> := {UpTimeInitial, UpTimeSubsequent, DownTimeInitial, DownTimeSubsequent}

  /** `_status`: unset until a solve completes. */
  datatype Status = Unset | Solved

  /** The commitment table of a solve result: one entry per
      (generator, period), absent when the solver reported no value. */
  type Commitment = map<(GenId, Period), Option<real>>

  /** The parts of a model the solve logic reads and changes.
      `fixed` holds the commitment variables fixed so far and their values,
      `active` the active constraint groups, `solves` one entry per solver
      call (true for a MIP solve), `results` the last results read back and
      `status` the status string. */
  datatype ModelState = ModelState(
    fixed: map<(GenId, Period), int>,
    active: set<ConstraintGroup>,
    solves: seq<bool>,
    results: Option<Commitment>,
    status: Status)

  /** The state of a freshly built model with the given constraint groups. */
  function NewModel(groups: set<ConstraintGroup>): (m: ModelState)
    ensures m.fixed == map[] && m.active == groups && m.solves == []
    ensures m.results.None? && m.status == Unset
  {
    ModelState(map[], groups, [], None, Unset)
  }

  /** A solver run: the model state and the MIP flag in, the commitment table
      or a failure message out. */
  type Solver = (ModelState, bool) -> Result<Commitment, string>

  /** The state after `solve` and the failure that ended it, if any. */
  datatype SolveOutcome = SolveOutcome(state: ModelState, failure: Option<string>)

  /** `int(float(v))`: the integer part of `x`, rounding toward zero. */
  function Truncate(x: real): (r: int)
    ensures x >= 0.0 ==> r as real <= x < r as real + 1.0
    ensures x < 0.0 ==> r as real - 1.0 < x <= r as real
  {
    if x >= 0.0 then x.Floor else -((-x).Floor)
  }

  /** Truncating a whole number gives that number back. */
  lemma TruncateInteger(n: int)
    ensures Truncate(n as real) == n
  {
  }

  /** Truncating 0/1 commitments keeps them. */
  lemma TruncateBinary(x: real)
    requires x == 0.0 || x == 1.0
    ensures Truncate(x) == x.Floor && (Truncate(x) == 0 || Truncate(x) == 1)
  {
  }

  /** The commitment variables fixed after walking the table: every entry
      with a value is fixed to its truncation; entries without a value leave
      the variable as it was. */
  function FixCommitment(fixed: map<(GenId, Period), int>, uc: Commitment): (r: map<(GenId, Period), int>)
    ensures forall k :: k in r <==> k in fixed || (k in uc && uc[k].Some?)
    ensures forall k :: k in uc && uc[k].Some? ==> r[k] == Truncate(uc[k].value)
    ensures forall k :: k in fixed && !(k in uc && uc[k].Some?) ==> r[k] == fixed[k]
  {
    map k | k in fixed.Keys + (set k | k in uc && uc[k].Some?) ::
      if k in uc && uc[k].Some? then Truncate(uc[k].value) else fixed[k]
  }

  /** Runs `resolve` when requested or when the solver is "xpress". */
  predicate ResolveRequested(solverName: string, resolve: bool) {
    resolve || solverName == "xpress"
  }

  /** The state after a successful MIP solve: the call is logged and its
      commitment table is read back as the results. */
  function MipSolved(m: ModelState, uc: Commitment): (r: ModelState)
    ensures r.solves == m.solves + [true] && r.results == Some(uc)
    ensures r.fixed == m.fixed && r.active == m.active && r.status == m.status
  {
    m.(solves := m.solves + [true], results := Some(uc))
  }

  /** The state the non-MIP solve of a resolve sees: the commitments of `uc`
      fixed and the four up/down-time groups switched off. */
  function ResolveInput(m: ModelState, uc: Commitment): (r: ModelState)
    ensures r.fixed == FixCommitment(m.fixed, uc) && r.active == m.active - UpDownTimeGroups
    ensures r.solves == m.solves && r.results == m.results && r.status == m.status
  {
    m.(fixed := FixCommitment(m.fixed, uc), active := m.active - UpDownTimeGroups)
  }

  /** The fix-and-resolve step after a successful MIP solve with commitment
      table `uc`: one non-MIP solve of the fixed model. It succeeds exactly
      when that solve does, and then its results replace the MIP's and the
      status becomes solved; a failing solve is reported with its message. */
  function Resolve(m: ModelState, uc: Commitment, solver: Solver): (r: SolveOutcome)
    ensures r.state.fixed == FixCommitment(m.fixed, uc)
    ensures r.state.active == m.active - UpDownTimeGroups
    ensures r.state.solves == m.solves + [false]
    ensures r.failure.None? <==> solver(ResolveInput(m, uc), false).Ok?
    ensures r.failure.None? ==>
      r.state.status == Solved && r.state.results == Some(solver(ResolveInput(m, uc), false).value)
    ensures r.failure.Some? ==>
      r.failure == Some(solver(ResolveInput(m, uc), false).error) &&
      r.state.status == m.status && r.state.results == m.results
  {
    var prepared := ResolveInput(m, uc);
    var second := solver(prepared, false);
    var logged := prepared.(solves := prepared.solves + [false]);
    if second.Err? then SolveOutcome(logged, Some(second.error))
    else SolveOutcome(logged.(results := Some(second.value), status := Solved), None)
  }

  /** `PSSTModel.solve`. A failing solver call ends the call with the state
      it left behind: the status is then unchanged. */
  function SolveModel(m: ModelState, solver: Solver, solverName: string, resolve: bool): (r: SolveOutcome)
    ensures |r.state.solves| >= |m.solves| + 1 && r.state.solves[..|m.solves| + 1] == m.solves + [true]
    ensures r.failure.None? ==> r.state.status == Solved
    ensures r.failure.Some? ==> r.state.status == m.status
    ensures !ResolveRequested(solverName, resolve) ==>
      r.state.fixed == m.fixed && r.state.active == m.active && r.state.solves == m.solves + [true]
    ensures !ResolveRequested(solverName, resolve) && solver(m, true).Ok? ==>
      r.failure.None? && r.state.results == Some(solver(m, true).value)
    ensures ResolveRequested(solverName, resolve) && solver(m, true).Ok? ==>
      r.state.active == m.active - UpDownTimeGroups && r.state.solves == m.solves + [true, false]
    ensures ResolveRequested(solverName, resolve) && solver(m, true).Ok? ==>
      r.state.fixed == FixCommitment(m.fixed, solver(m, true).value)
    // the second, non-MIP solve of a resolve decides the outcome
    ensures ResolveRequested(solverName, resolve) && solver(m, true).Ok? ==>
      var uc := solver(m, true).value;
      var lp := solver(ResolveInput(MipSolved(m, uc), uc), false);
      && (r.failure.None? <==> lp.Ok?)
      && (lp.Ok? ==> r.state.results == Some(lp.value))
      && (lp.Err? ==> r.failure == Some(lp.error) && r.state.results == Some(uc))
    ensures solver(m, true).Err? ==>
      r.state == m.(solves := m.solves + [true]) && r.failure == Some(solver(m, true).error)
  {
    var first := solver(m, true);
    if first.Err? then SolveOutcome(m.(solves := m.solves + [true]), Some(first.error))
    else
      var read := MipSolved(m, first.value);
      if ResolveRequested(solverName, resolve) then Resolve(read, first.value, solver)
      else SolveOutcome(read.(status := Solved), None)
  }

  /** After a resolve, each commitment the MIP reported is fixed to its
      integer part, so a whole-number commitment is fixed to exactly that
      number; commitments the MIP left empty are not fixed by the resolve. */
  lemma ResolveFixesReportedCommitments(m: ModelState, solver: Solver, solverName: string, resolve: bool,
                                        g: GenId, t: Period)
    requires ResolveRequested(solverName, resolve) && solver(m, true).Ok?
    ensures var uc := solver(m, true).value;
      var r := SolveModel(m, solver, solverName, resolve);
      && ((g, t) in uc && uc[(g, t)].Some? ==>
            (g, t) in r.state.fixed && r.state.fixed[(g, t)] == Truncate(uc[(g, t)].value))
      && ((g, t) in uc && uc[(g, t)].Some? && uc[(g, t)].value == uc[(g, t)].value.Floor as real ==>
            r.state.fixed[(g, t)] == uc[(g, t)].value.Floor)
      && ((g, t) !in m.fixed && !((g, t) in uc && uc[(g, t)].Some?) ==> (g, t) !in r.state.fixed)
  {
    var uc := solver(m, true).value;
    if (g, t) in uc && uc[(g, t)].Some? {
      TruncateInteger(uc[(g, t)].value.Floor);
    }
  }

  /** The resolve switches off exactly the four up/down-time groups: every
      other group keeps its state. */
  lemma ResolveDeactivatesExactlyUpDownTime(m: ModelState, solver: Solver, solverName: string, resolve: bool,
                                            c: ConstraintGroup)
    requires ResolveRequested(solverName, resolve) && solver(m, true).Ok?
    ensures c in SolveModel(m, solver, solverName, resolve).state.active <==> c in m.active && c !in UpDownTimeGroups
  {
  }

  /** Switching off the up/down-time groups is idempotent: solving again
      with resolve after a resolve leaves the active groups as they are. */
  lemma ResolveTwiceKeepsGroups(m: ModelState, solver: Solver, solverName: string, resolve: bool)
    requires ResolveRequested(solverName, resolve)
    requires solver(m, true).Ok?
    ensures var r := SolveModel(m, solver, solverName, resolve).state;
      solver(r, true).Ok? ==> SolveModel(r, solver, solverName, resolve).state.active == r.active
  {
  }
}

=== FILE: time_series.dfy ===
/** Flattening of a period-indexed table into a dictionary keyed by
    `(column, period)`, as `build_model` does for the renewable and hydro
    forecasts and for the load table. */
module TimeSeries {
  import opened CaseData

  /** The entries of the first `j` columns of row `i`. */
  function RowEntries<V>(t: Table<V>, i: nat, j: nat): (m: map<(ColumnId, Period), V>)
    requires WellFormedTable(t) && i < |t.index| && j <= |t.columns|
    ensures forall c, r :: (c, r) in m <==> c in t.columns[..j] && r == t.index[i]
    ensures forall j0 :: 0 <= j0 < j ==>
      (t.columns[j0], t.index[i]) in m && m[(t.columns[j0], t.index[i])] == t.cells[i][j0]
  {
    if j == 0 then map[]
    else
      assert t.columns[..j] == t.columns[..j - 1] + [t.columns[j - 1]];
      RowEntries(t, i, j - 1)[(t.columns[j - 1], t.index[i]) := t.cells[i][j - 1]]
  }

  /** The dictionary after the first `n` rows: each row's entries overwrite
      those of earlier rows with the same period label. */
  function FlattenRows<V>(t: Table<V>, n: nat): map<(ColumnId, Period), V>
    requires WellFormedTable(t) && n <= |t.index|
  {
    if n == 0 then map[] else FlattenRows(t, n - 1) + RowEntries(t, n - 1, |t.columns|)
  }

  /** Row `i` is the last of the first `n` rows carrying its period label. */
  predicate LastWithLabel<V>(t: Table<V>, n: nat, i: int) {
    0 <= i < n <= |t.index| && forall i' :: i < i' < n ==> t.index[i'] != t.index[i]
  }

  /** After `n` rows the keys are exactly the (column, period) pairs of
      those rows. */
  lemma {:induction false} FlattenRowsKeys<V>(t: Table<V>, n: nat)
    requires WellFormedTable(t) && n <= |t.index|
    ensures forall c, r :: (c, r) in FlattenRows(t, n) <==> c in t.columns && r in t.index[..n]
  {
    if n > 0 {
      FlattenRowsKeys(t, n - 1);
      assert t.index[..n] == t.index[..n - 1] + [t.index[n - 1]];
      assert t.columns[..|t.columns|] == t.columns;
    }
  }

  /** After `n` rows the pair (column `j`, label of row `i`) holds the entry
      of row `i` when no later row of the first `n` carries the same label. */
  lemma {:induction false} FlattenRowsAt<V>(t: Table<V>, n: nat, i: nat, j: nat)
    requires WellFormedTable(t) && LastWithLabel(t, n, i) && j < |t.columns|
    ensures (t.columns[j], t.index[i]) in FlattenRows(t, n)
    ensures FlattenRows(t, n)[(t.columns[j], t.index[i])] == t.cells[i][j]
  {
    var key := (t.columns[j], t.index[i]);
    var prev := FlattenRows(t, n - 1);
    var row := RowEntries(t, n - 1, |t.columns|);
    assert FlattenRows(t, n) == prev + row;
    if i == n - 1 {
      assert t.columns[..|t.columns|][j] == t.columns[j];
      assert key in row;
      assert row[key] == t.cells[i][j];
    } else {
      assert LastWithLabel(t, n - 1, i);
      FlattenRowsAt(t, n - 1, i, j);
      assert t.index[n - 1] != t.index[i];
      assert key !in row;
    }
  }

  /** The dictionary after all rows: keyed by every (column, period) pair,
      each holding the entry of the last row with that period. */
  lemma FlattenRowsComplete<V>(t: Table<V>)
    requires WellFormedTable(t)
    ensures forall c, r :: (c, r) in FlattenRows(t, |t.index|) <==> c in t.columns && r in t.index
    ensures forall i, j :: LastWithLabel(t, |t.index|, i) && 0 <= j < |t.columns| ==>
      (t.columns[j], t.index[i]) in FlattenRows(t, |t.index|) &&
      FlattenRows(t, |t.index|)[(t.columns[j], t.index[i])] == t.cells[i][j]
  {
    FlattenRowsKeys(t, |t.index|);
    assert t.index[..|t.index|] == t.index;
    forall i, j | LastWithLabel(t, |t.index|, i) && 0 <= j < |t.columns|
      ensures (t.columns[j], t.index[i]) in FlattenRows(t, |t.index|)
      ensures FlattenRows(t, |t.index|)[(t.columns[j], t.index[i])] == t.cells[i][j]
    {
      FlattenRowsAt(t, |t.index|, i, j);
    }
  }

  /** Walks the rows in order and, within a row, the columns in order,
      storing `cells[i][j]` under `(columns[j], index[i])`. */
  method FlattenTable<V>(t: Table<V>) returns (m: map<(ColumnId, Period), V>)
    requires WellFormedTable(t)
    ensures forall c, r :: (c, r) in m <==> c in t.columns && r in t.index
    ensures forall i, j :: LastWithLabel(t, |t.index|, i) && 0 <= j < |t.columns| ==>
      (t.columns[j], t.index[i]) in m && m[(t.columns[j], t.index[i])] == t.cells[i][j]
  {
    m := map[];
    var i := 0;
    while i < |t.index|
      invariant 0 <= i <= |t.index|
      invariant m == FlattenRows(t, i)
    {
      m := StoreRow(t, i, m);
      assert m == FlattenRows(t, i + 1);
      i := i + 1;
    }
    assert m == FlattenRows(t, |t.index|);
    FlattenRowsComplete(t);
  }

  /** Stores the entries of row `i` into `m0`, column by column, so that they
      overwrite any earlier entry under the same key. */
  method StoreRow<V>(t: Table<V>, i: nat, m0: map<(ColumnId, Period), V>) returns (m: map<(ColumnId, Period), V>)
    requires WellFormedTable(t) && i < |t.index|
    ensures m == m0 + RowEntries(t, i, |t.columns|)
  {
    m := m0;
    var j := 0;
    while j < |t.columns|
      invariant 0 <= j <= |t.columns|
      invariant m == m0 + RowEntries(t, i, j)
    {
      m := m[(t.columns[j], t.index[i]) := t.cells[i][j]];
      UnionUpdate(m0, RowEntries(t, i, j), (t.columns[j], t.index[i]), t.cells[i][j]);
      j := j + 1;
    }
  }

  /** Updating a union updates its right operand. */
  lemma UnionUpdate<K, V>(a: map<K, V>, b: map<K, V>, k: K, v: V)
    ensures (a + b)[k := v] == a + b[k := v]
  {
  }
}
